=== FILE: README.md ===
# Converto decision logic in Dafny

Converto is an interactive image and audio converter. It asks a few
questions on standard input and hands the work to Pillow (images) or pydub
(audio). The codecs stay opaque here. This project models the decisions
the program makes around them and proves what they guarantee:

- **Validators** (`source/utils.py` and the older `files_converter.py`):
  `int()` on a prompt answer, range and option checks, and the `None`
  sentinel for every failure.
- **Output naming**: a small model of pathlib (`name`, `parent`, `stem`,
  `suffix`, `with_name`, `with_suffix`, `str`/`Path` round trip) and the
  names built from it: `expo_<stem>.<fmt>`, `converted_<stem>.<fmt>`,
  `combined_<dir>.gif`, `<stem>_frame<i>.<ext>` and the mirrored tree
  under `expo_<dir>`.
- **Save plan** (`save_image`): per target extension, the colour-mode
  change and the save options, including `compress_level = 10 - q // 10`.
  Also the animated-GIF frame choice, the branch order of `process_image`,
  and the folder converter with its GIF-combine prompt.
- **`main` as a request builder**: the prompt answers are consumed front to
  back. The run either stops (a message and return, or an uncaught
  exception) or yields the converter call with a well-formed request.
- **Audio plan** (`process_audio`): normalize, frame rate, channels, then
  sample width 2, and the export parameters.

Prompt answers are a `seq<string>`. Running out of answers models
`input()` raising `EOFError`. Whether a path exists or is a directory, the
`os.walk` listing, what `Image.open` or pydub make of each file, and the
home directory are parameters.

One module per concern:

- `Common`: `Option`, prompt results, and `strip`/`lower`/`endswith`.
- `Integers`: `int()`, `isdigit()` and `str()`.
- `Paths`: the pathlib model.
- `Formats`: the eight output formats.
- `Utils`, `ImageProcessing`, `AudioProcessing` and `ConverterMain`: the
  four files under `source/`.
- `Batch`: the walk entries and the `converted_` naming shared by both
  folder converters.
- `FilesConverter`: the older stand-alone script.

`combine_to_gif` (source/image_processing.py:99-111) does not pad or
centre frames on a shared canvas, and it prints no notice when the
folder holds no image.

## Model

| member | source | states |
|---|---|---|
| Common.Trim | source/main.py:13 | `strip` removes only removable characters, and only from the two ends: the result is a slice of the input with nothing but removable characters before and after it; it has no removable character at either end, and a string with none there comes back unchanged |
| Common.TrimSlice | source/main.py:13 | stripping the front and then the back leaves a slice of the input framed only by removable characters |
| Common.TrimIdempotent | source/main.py:25-26 | stripping an already stripped answer removes nothing more |
| Common.Lower | source/main.py:18 | `lower()` keeps the length, leaves no upper-case ASCII letter, and changes a character only when it is an upper-case letter, into the letter 32 code points above |
| Common.LowerIdempotent | source/main.py:18 | lower-casing twice is lower-casing once |
| Integers.ParseInt | source/utils.py:11 | on a stripped answer, a value exactly when the stripped text is digits with at most one leading sign; the value is the decimal value of the digits, negated for a minus sign; surrounding whitespace is ignored, so a blank answer never parses |
| Integers.ParseIntStrip | source/main.py:48-50 | `int()` gives the same result on a stripped and an unstripped answer |
| Integers.ParseNegative | source/utils.py:11 | a minus sign before digits reads as the negated value |
| Integers.ShowNat | source/image_processing.py:30 | `str(i)` of a frame index is a non-empty run of digits |
| Integers.DigitsValueShowNat | source/image_processing.py:30 | the digits `str(i)` writes read back as `i` |
| Integers.ParseShowInt | source/main.py:26 | `int(str(n)) == n`, so the printed default 85 reads back as 85 |
| Integers.ParseShowNat | source/image_processing.py:30 | a printed natural number reads back as itself |
| Integers.ParseShowNegative | source/main.py:26 | a printed negative number reads back as itself |
| Integers.ShowNatInjective | source/image_processing.py:30 | different frame indices print differently |
| Paths.Join | source/image_processing.py:30 | `p / name` has parent `p` and name `name` |
| Paths.ParentJoinName | source/main.py:86 | a path with a name is its parent joined with that name |
| Paths.StemSuffixSplit | source/image_processing.py:24-30 | a name is its stem followed by its suffix; a suffix is a dot plus dot-free text; a non-empty name has a non-empty stem |
| Paths.DottedName | source/image_processing.py:96 | `base + "." + ext` has suffix `.ext` and stem `base` |
| Paths.WithName | source/main.py:86 | `with_name` fails exactly for a nameless path or an invalid name; otherwise the parent is kept and the name replaced |
| Paths.WithSuffix | source/main.py:86 | `with_suffix` fails exactly for a nameless path or a malformed suffix; otherwise the parent and stem are kept and the suffix replaced |
| Paths.WithOwnSuffix | files_converter.py:98 | replacing a suffix by the one the name already has returns the same path |
| Paths.ParseRender | source/main.py:86 | `Path(str(p)) == p` |
| Formats.FormatName | source/main.py:7 | each format name is non-empty, without dot or slash |
| Formats.ParseFormat | source/main.py:18-19 | a recognised answer is the name of the format it selects |
| Formats.ParseFormatName | source/main.py:7 | names and formats correspond one to one |
| Formats.ExpoName | source/main.py:86 | `"expo_" + stem` of a component is a component |
| Formats.DotFormat | source/main.py:86 | `"." + format` is a suffix `with_suffix` accepts |
| Utils.ValidateInput | source/utils.py:9-19 | a value exactly when the text parses and meets the range and option checks (an empty option list checks nothing); the value is the parsed one; every failure is `None` |
| Utils.ValidateQuality | source/utils.py:21-25 | `None` for bmp/ico/gif/aac whatever the text; otherwise `q` exactly when the text parses to `q` in [1, 100] |
| Utils.ValidateBitrate | source/utils.py:27-30 | empty gives `None`; otherwise `b` exactly when the text parses to `b` in [32, 320] |
| Utils.ValidateChannels | source/utils.py:32-35 | empty gives `None`; otherwise `c` exactly when the text parses to 1 or 2 |
| Utils.ValidateFrequency | source/utils.py:37-40 | empty gives `None`; otherwise `f` exactly when the text parses to `f` in [8000, 48000] |
| Utils.ValidateResize | source/utils.py:42-43 | always a pair; each side is independently the parsed integer or `None`, with no sign or range check |
| Utils.QualityAcceptsPrinted | source/utils.py:21-25 | every printed quality in [1, 100] is accepted as itself for a format that takes one |
| Utils.QualityRefusesPrintedOutOfRange | source/utils.py:21-25 | a printed quality outside [1, 100] is refused for every format |
| Utils.AudioValidatorsAcceptPrinted | source/utils.py:27-40 | the audio validators accept exactly their printed in-range values |
| Batch.FileOf | source/image_processing.py:95 | `os.path.join(root, file)` lies in the walked directory and carries the file's name |
| Batch.ConvertedName | source/image_processing.py:96 | `converted_<stem>.<fmt>` has stem `converted_<stem>` and suffix `.<fmt>` |
| Batch.ConvertedPath | source/image_processing.py:96 | the output sits in the same directory as its input and is named `converted_<stem>.<fmt>` |
| Batch.ConvertedPathsCollideIff | source/image_processing.py:93-97 | two files share an output exactly when they share a directory and a stem |
| ImageProcessing.SizingOf | source/image_processing.py:11-12 | no resize for `None`; a resize to `(w, h)` when both sides are numbers; otherwise a pair that fails inside Pillow |
| ImageProcessing.TargetOf | source/image_processing.py:53-75 | each branch is taken only when the name has that extension; no branch is taken exactly when it has none of them |
| ImageProcessing.ModeOps | source/image_processing.py:53-80 | the mode change fails exactly for JPEG from LA; at most one operation; PNG and ICO convert an unaccepted mode to RGBA and BMP to RGB, and an accepted mode is kept; JPEG flattens RGBA on white through band 3 and converts every other mode but LA to RGB; WEBP always converts, to RGBA exactly for RGBA/LA; GIF changes nothing; the result is a mode the target accepts |
| ImageProcessing.CompressLevel | source/image_processing.py:64 | for q in [1, 100] the level lies in [0, 10] and is 10 exactly when q is at most 9 |
| ImageProcessing.CompressLevelNonIncreasing | source/image_processing.py:64 | a higher quality never gives a higher compression level |
| ImageProcessing.SaveImage | source/image_processing.py:52-80 | no extension writes nothing; the fault cases are exactly JPEG from LA and PNG without quality; otherwise the operations before the save are exactly the target's mode change (the fallbacks and the JPEG flatten above), the save comes last, writes the output file, and uses the changed mode, which the target accepts; no operation resizes |
| ImageProcessing.SaveOptionsByTarget | source/image_processing.py:52-80 | the quality, optimize, progressive and compress-level options each target passes |
| ImageProcessing.Extension | source/image_processing.py:30 | the extension holds no dot and no slash |
| ImageProcessing.ExtensionStripsDot | source/image_processing.py:30 | the extension is `suffix.strip('.')` |
| ImageProcessing.FramePart | source/image_processing.py:30 | `<stem>_frame<i>.<ext>` is a valid component |
| ImageProcessing.FramePaths | source/image_processing.py:23-38 | "all" writes one file per frame, each beside the output file and named `<stem>_frame<i>.<ext>` |
| ImageProcessing.FrameNamesDistinct | source/image_processing.py:30 | different frame indices give different names |
| ImageProcessing.FramePathsDistinct | source/image_processing.py:27-35 | no two extracted frames are written to the same path |
| ImageProcessing.RequestedFrame | source/image_processing.py:40 | a digit answer requests the frame `int()` reads; anything else requests frame 0 |
| ImageProcessing.HandleAnimatedGif | source/image_processing.py:18-50 | one answer is read; with an answer and a usable size, "all" in any case saves every frame's path and anything else saves one frame, the requested one or 0 past the end; with an unusable size it fails exactly when a frame is resized: always for a single frame, and for "all" when there is a frame at all; a failure is a missing answer or `None` in the size; the saved frames carry the requested sizing; nothing goes through the save table |
| ImageProcessing.ProcessImage | source/image_processing.py:5-16 | an unreadable file is reported; an animated GIF is handed to the frame handler, and only it reads an answer; a still image is saved exactly when the size is usable and the save table writes, and otherwise fails with `None` in the size or the table's fault |
| ImageProcessing.StillIgnoresAnswers | source/image_processing.py:8-16 | for a missing or still image the outcome does not depend on the answers left |
| ImageProcessing.StillImageOps | source/image_processing.py:11-13 | a saved still image is the resize followed by exactly what `save_image` does |
| ImageProcessing.StillImageResizeFirst | source/image_processing.py:11-13 | the resize to the exact requested size comes first, and nothing later resizes |
| ImageProcessing.StillImageSaveLast | source/image_processing.py:11-14 | the save comes last, in the source mode after the table's change; with no matching extension nothing is written, yet the result counts as saved |
| ImageProcessing.SaveLastAfterResize | source/image_processing.py:11-14 | resizes placed before the save table's operations leave the save last and in the table's mode |
| ImageProcessing.ModeAfterConcat | source/image_processing.py:11-13 | resizes before the table do not change the mode it produces |
| ImageProcessing.AnimatedIgnoresQuality | source/image_processing.py:8-10 | an animated GIF's outcome does not depend on the quality |
| ImageProcessing.CollectFrames | source/image_processing.py:100-107 | frames are collected in walk order exactly when every file opens and the resize pair is usable |
| ImageProcessing.CombineToGif | source/image_processing.py:99-111 | an animation is written exactly when there is at least one file and none fails; its frames are the files in walk order, each resized to the requested pair, at 100 ms per frame, looping forever; an empty folder writes nothing; a crash is the `None`-in-size error exactly when the first file opens and the pair is unusable, and otherwise the unreadable-file error |
| ImageProcessing.FirstCombineFault | source/image_processing.py:102-106 | the exception that ends the collection: the resize error exactly when the first file opens and the pair has a `None` side, otherwise the open error |
| ImageProcessing.ConvertOne | source/image_processing.py:95-97 | a file is converted to `converted_<stem>.<fmt>` beside itself; a still or unreadable file has exactly the outcome `process_image` gives it; at most the answers left are read |
| ImageProcessing.ConvertEach | source/image_processing.py:93-97 | one job per file, in walk order, each beside its input and, for a still or unreadable file, with the outcome `process_image` gives it |
| ImageProcessing.AllJobsForAt | source/image_processing.py:93-97 | the k-th job is for the k-th file of the walk, writes beside it and, for a still file, has its `process_image` outcome, for every k |
| ImageProcessing.CombinedPath | source/image_processing.py:86 | `combined_<dir>.gif` is placed in the folder's lexical parent (the current directory for `..`) |
| ImageProcessing.ConvertFolderImages | source/image_processing.py:82-97 | non-GIF targets convert every file; for GIF, no answer stops at the choice, yes/y combines the walk into `combined_<dir>.gif` exactly as `combine_to_gif` does, no/n converts every file, and any other answer converts nothing; the k-th converted job reads the k-th file, writes `converted_<stem>.<fmt>` beside it and, for a still file, has its `process_image` outcome |
| AudioProcessing.SlotBelowFirst | source/audio_processing.py:10-18 | an ordered call list holds no call of lower rank than its first |
| AudioProcessing.Step | source/audio_processing.py:10-17 | adding an optional call keeps the order, fills its own slot exactly when present, and leaves the other slots unchanged |
| AudioProcessing.AudioOps | source/audio_processing.py:10-18 | calls in the order normalize, frame rate, channels, sample width; each optional call is present exactly when its argument is truthy and carries it; the width is always 2 and comes last |
| AudioProcessing.ProcessAudio | source/audio_processing.py:6-26 | a failure is reported and not raised; an export always uses format adts and codec aac, carries the bitrate exactly when it is truthy and unchanged, and applies the ordered calls |
| AudioProcessing.AudioJobPlacement | source/audio_processing.py:30-34 | every file is attempted and written beside itself as `converted_<stem>.<fmt>`; the export path parses back to that output |
| AudioProcessing.ConvertFolderAudio | source/audio_processing.py:29-34 | one job per file, in walk order, with no filter |
| ConverterMain.SupportedFormatsAreFormats | source/main.py:7 | the supported list is exactly the eight format names |
| ConverterMain.AskQuality | source/main.py:23-28 | asked only for jpg/jpeg/png/webp; blank means 85; an invalid value stops the run; the quality is in [1, 100] |
| ConverterMain.IcoChoice | source/main.py:36-44 | a preset exactly when the answer parses to k in [1, 6], however k is spelled; the preset is then the k-th entry of the size table |
| ConverterMain.IcoPresetChoice | source/main.py:36-40 | choosing k gives the k-th square preset |
| ConverterMain.AskResize | source/main.py:30-53 | AAC never resizes; ICO takes a preset or nothing, never stops on an invalid choice, and stops only when no answer is left; otherwise the answer goes to the width-and-height reader |
| ConverterMain.AskSizes | source/main.py:46-53 | yes/y reads the next two answers into the validated pair, and stops if they are missing; no/n/blank gives no resize and reads nothing more; anything else stops with the resize error |
| ConverterMain.AskAudio | source/main.py:55-78 | asked only for AAC; invalid numbers become `None`; normalize takes yes/y or no/n/blank, anything else stops; values stay in their ranges |
| ConverterMain.AskOptions | source/main.py:23-78 | completes exactly when the quality, resize and audio prompts each complete in turn; the request carries exactly their values and the answers left after the last; it is well formed for its format |
| ConverterMain.SingleOutput | source/main.py:86 | defined exactly when the input has a name; same directory; the name is the stem of `expo_<stem>` plus `.<fmt>` |
| ConverterMain.SingleOutputName | source/main.py:86 | with a dot-free stem the output is `expo_<stem>.<fmt>` |
| ConverterMain.SingleOutputMultiDot | source/main.py:86 | `a.b.png` becomes `expo_a.jpg`: the middle piece is lost |
| ConverterMain.Dispatch | source/main.py:80-91 | a folder job exactly for a directory and an audio job exactly for AAC; a file is written beside itself with the `expo_` name; a nameless file stops the run |
| ConverterMain.FromFormat | source/main.py:18-91 | the run completes exactly when the format is supported, the option prompts complete, and the path is a directory or has a name; the format check comes before any option; a completed run carries the options read after the format; a folder job is for the typed folder; a file job reads the typed file and writes beside it, named the stem of `expo_<stem>` plus `.<fmt>` |
| ConverterMain.Main | source/main.py:12-93 | the run completes exactly when the path exists, the format is supported, the option prompts complete, and the path is a directory or has a name; the path is checked, then the format, then the options; a completed run carries the options read after the path and format, for the path typed with whitespace and quotes stripped; it goes to the folder converter exactly for a directory and to audio exactly for AAC; a file job writes beside its input, named the stem of `expo_<stem>` plus `.<fmt>` |
| FilesConverter.ValidateQuality | files_converter.py:11-20 | `q` exactly when the text parses to `q` in [1, 100] |
| FilesConverter.ValidateQualityAgrees | files_converter.py:11-20 | the script's quality check is the package's check for every format that takes a quality |
| FilesConverter.ReadResize | files_converter.py:22-29 | both numbers or nothing; a bad width ends it before the height is read; no sign or range check |
| FilesConverter.JpegBranch | files_converter.py:39-46 | only an LA source fails; RGBA is flattened on white through band 3, every other mode is converted to RGB; the save uses the quality; the mode change is the package's JPEG change |
| FilesConverter.PngBranch | files_converter.py:47-50 | PNG saves RGBA/RGB/LA/L unchanged, converts anything else to RGBA first, and passes `10 - q // 10`; the mode change is the package's PNG change |
| FilesConverter.SaveAs | files_converter.py:39-50 | only JPEG from LA fails; a name that is neither JPEG nor PNG writes nothing |
| FilesConverter.SaveAsAgrees | files_converter.py:39-50 | on JPEG and PNG names the script's table is the package's `save_image` |
| FilesConverter.SaveAsAgreesJpeg | files_converter.py:39-46 | the JPEG branch agrees with the package |
| FilesConverter.SaveAsAgreesPng | files_converter.py:47-50 | the PNG branch agrees with the package |
| FilesConverter.AsDim | files_converter.py:35-36 | the script's pair resizes exactly as the package's pair |
| FilesConverter.ProcessImage | files_converter.py:31-53 | an unreadable file is reported; the only other fault is JPEG from LA; the resize comes first |
| FilesConverter.ProcessImageAgrees | files_converter.py:31-53 | for every image and a JPEG or PNG name, the script does what the package does with the image taken as a still one (the script has no GIF branch); for an image that is not an animated GIF, what the package does with the image itself |
| FilesConverter.OutputRoot | files_converter.py:56 | the root is `expo_<dir>` beside the folder |
| FilesConverter.OutputRootOutside | files_converter.py:56-58 | lexically, a named folder's output root is a sibling: its parts never extend the folder's |
| FilesConverter.OutputRootOfParentDirectory | files_converter.py:56-58 | `..` parses to the single part `..`, and its output root is `expo_..` in the current directory, which on disk lies inside the walked folder `..` |
| FilesConverter.OutputRootOfCurrentDirectory | files_converter.py:56-58 | for `.` the root is `expo_`, inside the walked folder |
| FilesConverter.RelativeTo | files_converter.py:63 | `relative_to` succeeds exactly under the base; the base plus the result is the path |
| FilesConverter.JoinPath | files_converter.py:64 | `root / rel` is a path that, relative to `root`, is `rel` again |
| FilesConverter.MirroredName | files_converter.py:64 | the stem is kept and the suffix becomes `.<fmt>` |
| FilesConverter.MirroredPath | files_converter.py:63-64 | relative to the output root, the output is the input's directory and renamed file |
| FilesConverter.MirroredPathByPathlib | files_converter.py:63-64 | the output is `root / relative_path.with_suffix(...)` computed as the code does |
| FilesConverter.RenamedRelative | files_converter.py:64 | `with_suffix` on a relative file path renames only the file |
| FilesConverter.InputRelative | files_converter.py:63 | a walked file relative to the folder is its directory and name |
| FilesConverter.MirroredPathsCollideIff | files_converter.py:58-66 | two files share an output exactly when they share a directory and a stem |
| FilesConverter.FolderJobFor | files_converter.py:60-68 | skipped with a notice exactly when the file does not open; otherwise converted into the mirrored tree with exactly the outcome the script's `process_image` gives, and later errors are not reported as a skip |
| FilesConverter.ConvertFolder | files_converter.py:55-68 | one job per file, in walk order |
| FilesConverter.DesktopName | files_converter.py:96 | `expo_<stem>.<fmt>` is a valid component |
| FilesConverter.DesktopPath | files_converter.py:96 | the Desktop output is `<home>/Desktop/expo_<stem>.<fmt>` |
| FilesConverter.BlankOutput | files_converter.py:98 | defined exactly when the input has a name; same directory, stem kept, suffix `.<fmt>` |
| FilesConverter.OutputChoice | files_converter.py:94-98 | desktop/d in any case gives `<home>/Desktop/expo_<stem>.<fmt>`; a blank answer keeps the input's directory and stem with suffix `.<fmt>`, and fails only for a nameless input; any other answer is used verbatim |
| FilesConverter.BlankAnswerKeepsMatchingInput | files_converter.py:97-98 | a blank answer for an input that already has the target extension names the input itself |
| FilesConverter.BlankOutputOfMatchingInput | files_converter.py:98 | `with_suffix` to the suffix the input already has gives the input |
| FilesConverter.DefaultQualityText | files_converter.py:82-83 | the default text "85" validates to 85 |
| FilesConverter.AskQuality | files_converter.py:82-85 | blank means 85; otherwise a number in [1, 100] or the run stops |
| FilesConverter.AskResize | files_converter.py:87-89 | yes/y reads the two sizes; any other answer means no resize and never stops |
| FilesConverter.AskQualityResize | files_converter.py:82-89 | blank means 85, otherwise the parsed quality in [1, 100]; yes/y gives the two sizes read next, anything else no resize with nothing more read; it completes whenever the quality is valid and, after yes/y, the sizes are read; the only stops are a missing answer and an invalid quality |
| FilesConverter.ScriptFormat | files_converter.py:77-80 | only jpg, jpeg and png pass, as the package's formats of those names |
| FilesConverter.AskOptions | files_converter.py:77-89 | the format is the one typed and among jpg/jpeg/png; the quality and resize are exactly those the next prompts read; the run completes whenever the format passes and those prompts complete |
| FilesConverter.Main | files_converter.py:70-99 | the run completes exactly when the path exists, the format and option prompts complete, and, for a file, an output answer is left and names a path; path check, then format, then options; a completed run carries the options read after the path; a folder run exactly for a directory, on the typed path; a file run reads the typed path and writes where the output answer after the options points |

## Left out

- Interactive output: every `print`, and the message text of each outcome. The outcomes are tagged results, so "Conversion completed." is implied by a `Main` result that reaches a converter.
- Pillow and pydub internals: decoding, compositing, resampling, normalisation and the codecs. The model records the calls the program makes, in order.
- Filesystem effects: `mkdir`, the traversal order of `os.walk`, `os.path.exists`/`isdir` and `~` expansion. These are parameters or given sequences.
- Common.Strip: only ASCII and Latin-1 whitespace is removed, not Python's full Unicode whitespace table.
- Common.Lower: only ASCII letters are lower-cased.
- Integers.ParseInt: does not accept underscores or non-ASCII digits, which Python's `int()` does.
- Integers.ParseInt: skips the separators U+001C..U+001F around the digits, which `str.strip()` removes but `int()` refuses; every call site strips the answer first, so no prompt reaches the difference.
- Integers.ParseIntStrip: holds of the model only; in Python `int()` of an unstripped answer with U+001C..U+001F at an end raises where the stripped answer parses.
- ImageProcessing.RequestedFrame: `isdigit()` is modelled on ASCII digits only.
- Paths.ParsePath: does not give exactly two leading slashes pathlib's special meaning.
- Batch.FileOf: `os.path.join` is modelled on components; the exact string it builds (a trailing slash in the typed folder, say) is not.
- ImageProcessing.ProcessImage: Pillow's refusal of a resize to a size that is not positive (`validate_resize("0", "5")` reaches `img.resize((0, 5))` at source/image_processing.py:11-12) is reported as saved.
- ImageProcessing.HandleAnimatedGif: likewise reports a frame resized to a size that is not positive (source/image_processing.py:32-33) as saved.
- ImageProcessing.CombineToGif: likewise collects a frame resized to a size that is not positive (source/image_processing.py:105-106).
- ImageProcessing.SaveImage: Pillow's own rejections (a size that is not positive, a conversion it does not support) are not modelled. The failures the program's own code causes are modelled: band 3 of a two-band image, and `None` in a size or quality.
- ImageProcessing.HandleAnimatedGif: assumes that `n_frames` is exact, so the `EOFError` break in the "all" loop never fires.
- ImageProcessing.HandleAnimatedGif: reports a frame saved to a `.jpg` name as written, although Pillow refuses to write a P or RGBA frame as JPEG; that error is caught at source/image_processing.py:15-16 and only printed.
- ImageProcessing.ConvertEach: for an animated GIF met during the walk, the contract does not pin the outcome or which answer its frame prompt consumed; it states only that the job is placed beside its input and reads no more answers than remain.
- ImageProcessing.ConvertOne: has the same gap for an animated GIF, through `JobFor`.
- ImageProcessing.ConvertFolderImages: has the same gap for an animated GIF in a converted walk, through `AllJobsFor`.
- Paths: only POSIX paths are modelled. Windows drive letters and backslash separators are not, although the `.strip('"')` at source/main.py:13 suggests paths pasted from Windows.
- AudioProcessing.ProcessAudio: one flag stands for every pydub failure, at decoding or at export.
- FilesConverter.OutputRootOutside: is lexical only. For a folder typed as `..` the output root `./expo_..` lies inside the walked folder, so `os.walk` at files_converter.py:58 can meet the files being written; the walk is a given sequence here, so the model does not see them.
- FilesConverter.ProcessImage: like `SaveImage`, does not model Pillow's own rejections.

=== FILE: audio_processing.dfy ===
/**
  `source/audio_processing.py`: the operations `process_audio` asks pydub to
  perform on a decoded file, in order, and the export parameters it passes;
  and the output naming of `convert_folder_audio`. Decoding, the operations
  themselves and the AAC encoder are opaque; a file pydub cannot decode is
  reported and skipped.
*/
module AudioProcessing {
  import opened Common
  import opened Paths
  import opened Formats
  import opened Batch

  /** The audio options the prompts collect. */
  datatype AudioSettings = AudioSettings(
    bitrate: Option<int>, channels: Option<int>, frequency: Option<int>, normalize: bool)

  /** One pydub call on the decoded audio. */
  datatype AudioOp = Normalize | SetFrameRate(hz: int) | SetChannels(count: int) | SetSampleWidth(bytes: int)

  /** The position of each kind of call in the pipeline. */
  function Rank(op: AudioOp): nat {
    match op
    case Normalize => 0
    case SetFrameRate(_) => 1
    case SetChannels(_) => 2
    case SetSampleWidth(_) => 3
  }

  /** The keyword arguments of `audio.export`. */
  datatype ExportParams = ExportParams(format: string, codec: string, bitrate: Option<int>)

  datatype AudioOutcome =
    | Exported(ops: seq<AudioOp>, path: string, params: ExportParams)   // "File saved" printed
    | DecodeFailed                                                       // "Error processing" printed

  /** Python truthiness of an optional integer: `None` and `0` are false. */
  predicate Truthy(v: Option<int>) {
    v.Some? && v.value != 0
  }

  /** Calls in strictly increasing rank, so at most one of each kind. */
  predicate Ordered(ops: seq<AudioOp>) {
    forall i, j :: 0 <= i < j < |ops| ==> Rank(ops[i]) < Rank(ops[j])
  }

  /** The call of the given rank, if `ops` makes one. */
  function Slot(ops: seq<AudioOp>, rank: nat): Option<AudioOp> {
    if |ops| == 0 then None
    else if Rank(ops[0]) == rank then Some(ops[0])
    else Slot(ops[1..], rank)
  }

  /** An ordered list holds no call ranked below its first one. */
  lemma {:induction false} SlotBelowFirst(ops: seq<AudioOp>, rank: nat)
    requires |ops| > 0 && Ordered(ops) && rank < Rank(ops[0])
    ensures Slot(ops, rank) == None
  {
    if |ops| > 1 {
      SlotBelowFirst(ops[1..], rank);
    }
  }

  /** The calls `process_audio` makes, in order: normalize, frame rate,
      channels, then the sample width, which is always forced to 2 bytes.
      Each optional call is made exactly when its argument is truthy, and
      carries that argument. Since the calls are ordered by rank, the four
      slots determine the whole list. */
  function AudioOps(settings: AudioSettings): (ops: seq<AudioOp>)
    ensures Ordered(ops)
    ensures |ops| > 0 && ops[|ops| - 1] == SetSampleWidth(2)
    ensures Slot(ops, 0) == if settings.normalize then Some(Normalize) else None
    ensures Slot(ops, 1) == if Truthy(settings.frequency) then Some(SetFrameRate(settings.frequency.value)) else None
    ensures Slot(ops, 2) == if Truthy(settings.channels) then Some(SetChannels(settings.channels.value)) else None
    ensures Slot(ops, 3) == Some(SetSampleWidth(2))
  {
    var width := [SetSampleWidth(2)];
    var channels := Step(Truthy(settings.channels), SetChannels(ArgOf(settings.channels)), width);
    var rate := Step(Truthy(settings.frequency), SetFrameRate(ArgOf(settings.frequency)), channels);
    Step(settings.normalize, Normalize, rate)
  }

  /** The integer an optional argument carries, 0 for `None`. */
  function ArgOf(v: Option<int>): int {
    if v.Some? then v.value else 0
  }

  /** `op` put in front of `tail` when `present`: the order is kept, the
      slot of `op` records whether it was added, and no other slot changes. */
  function Step(present: bool, op: AudioOp, tail: seq<AudioOp>): (ops: seq<AudioOp>)
    requires |tail| > 0 && Ordered(tail) && Rank(op) < Rank(tail[0])
    ensures Ordered(ops) && |ops| > 0 && ops[|ops| - 1] == tail[|tail| - 1]
    ensures Rank(op) <= Rank(ops[0])
    ensures Slot(ops, Rank(op)) == if present then Some(op) else None
    ensures forall rank: nat :: rank != Rank(op) ==> Slot(ops, rank) == Slot(tail, rank)
  {
    SlotBelowFirst(tail, Rank(op));
    if present then [op] + tail else tail
  }

  /** `process_audio`: a decodable file is exported as ADTS-framed AAC, with
      a `bitrate` key exactly when the bitrate is truthy, carrying the value
      unchanged. Nothing escapes: a decode failure is reported. */
  function ProcessAudio(decodes: bool, outputFile: string, settings: AudioSettings): (r: AudioOutcome)
    ensures r.DecodeFailed? <==> !decodes
    ensures r.Exported? ==>
              && r.path == outputFile
              && r.params.format == "adts" && r.params.codec == "aac"
              && (r.params.bitrate.Some? <==> Truthy(settings.bitrate))
              && (r.params.bitrate.Some? ==> r.params.bitrate == settings.bitrate)
              && r.ops == AudioOps(settings)
  {
    if !decodes then DecodeFailed
    else
      var bitrate := if Truthy(settings.bitrate) then settings.bitrate else None;
      Exported(AudioOps(settings), outputFile, ExportParams("adts", "aac", bitrate))
  }

  /** One file handed to `process_audio` by the folder converter. */
  datatype AudioJob = AudioJob(input: Path, output: Path, outcome: AudioOutcome)

  /** What `convert_folder_audio` does with one file of the walk. */
  function AudioJobFor(folder: Path, e: Entry<bool>, fmt: Format, settings: AudioSettings): AudioJob {
    var output := ConvertedPath(folder, e, fmt);
    AudioJob(FileOf(folder, e), output, ProcessAudio(e.media, Render(output), settings))
  }

  /** Each file of the walk, whatever its kind, is converted beside itself
      as `converted_<stem>.<format>`; a file that does not decode is only
      reported, and one that does is exported to exactly that path. */
  lemma AudioJobPlacement(folder: Path, e: Entry<bool>, fmt: Format, settings: AudioSettings)
    ensures var j := AudioJobFor(folder, e, fmt, settings);
            && j.input == FileOf(folder, e)
            && Parent(j.output) == Parent(j.input)
            && Stem(Name(j.output)) == "converted_" + Stem(e.name)
            && Suffix(Name(j.output)) == "." + FormatName(fmt)
            && (j.outcome.DecodeFailed? <==> !e.media)
            && (j.outcome.Exported? ==> ParsePath(j.outcome.path) == j.output)
  {
    ParseRender(ConvertedPath(folder, e, fmt));
  }

  /** `convert_folder_audio`: one job per file of the walk, in walk order. */
  function ConvertFolderAudio(folder: Path, walk: seq<Entry<bool>>, fmt: Format, settings: AudioSettings)
    : (jobs: seq<AudioJob>)
    ensures |jobs| == |walk|
    ensures forall i :: 0 <= i < |walk| ==> jobs[i] == AudioJobFor(folder, walk[i], fmt, settings)
  {
    if |walk| == 0 then []
    else [AudioJobFor(folder, walk[0], fmt, settings)] + ConvertFolderAudio(folder, walk[1..], fmt, settings)
  }
}

=== FILE: batch.dfy ===
/**
  What the folder converters see of `os.walk`: one entry per file, giving
  the directory it sits in relative to the walked folder, its name, and
  what the media library makes of it. The walk order is the order of the
  sequence. Also the `converted_<stem>.<format>` naming that the image and
  the audio folder converters share.
*/
module Batch {
  import opened Common
  import opened Paths
  import opened Formats

  datatype Entry<M> = Entry(relDir: seq<Part>, name: Part, media: M)

  /** `root` as `os.walk` yields it for this entry. */
  function DirOf<M>(folder: Path, e: Entry<M>): Path {
    Path(folder.absolute, folder.parts + e.relDir)
  }

  /** `os.path.join(root, file)`. */
  function FileOf<M>(folder: Path, e: Entry<M>): (p: Path)
    ensures Parent(p) == DirOf(folder, e) && Name(p) == e.name
  {
    Join(DirOf(folder, e), e.name)
  }

  /** `f"converted_{Path(file).stem}.{output_format}"`: the stem gains the
      prefix and the suffix becomes the target format. */
  function ConvertedName(name: Part, fmt: Format): (n: Part)
    ensures Stem(n) == "converted_" + Stem(name)
    ensures Suffix(n) == "." + FormatName(fmt)
  {
    StemSuffixSplit(name);
    DottedName("converted_" + Stem(name), FormatName(fmt));
    "converted_" + Stem(name) + "." + FormatName(fmt)
  }

  /** Where a folder converter writes the result for one entry: beside the
      input, in the same directory. */
  function ConvertedPath<M>(folder: Path, e: Entry<M>, fmt: Format): (p: Path)
    ensures Parent(p) == Parent(FileOf(folder, e))
    ensures Name(p) == ConvertedName(e.name, fmt)
  {
    Join(DirOf(folder, e), ConvertedName(e.name, fmt))
  }

  /** Two files get the same output exactly when they sit in the same
      directory and share a stem, as `a.png` and `a.bmp` do; the second
      conversion then overwrites the first. */
  lemma ConvertedPathsCollideIff<M>(folder: Path, e1: Entry<M>, e2: Entry<M>, fmt: Format)
    ensures ConvertedPath(folder, e1, fmt) == ConvertedPath(folder, e2, fmt)
            <==> e1.relDir == e2.relDir && Stem(e1.name) == Stem(e2.name)
  {
    var n1 := ConvertedName(e1.name, fmt);
    var n2 := ConvertedName(e2.name, fmt);
    if ConvertedPath(folder, e1, fmt) == ConvertedPath(folder, e2, fmt) {
      assert DirOf(folder, e1) == DirOf(folder, e2);
      assert folder.parts + e1.relDir == folder.parts + e2.relDir;
      assert e1.relDir == (folder.parts + e1.relDir)[|folder.parts|..];
      assert e2.relDir == (folder.parts + e2.relDir)[|folder.parts|..];
      assert Stem(n1) == Stem(n2);
      assert Stem(e1.name) == ("converted_" + Stem(e1.name))[10..];
      assert Stem(e2.name) == ("converted_" + Stem(e2.name))[10..];
    }
  }
}

=== FILE: common.dfy ===
/**
  Small building blocks shared by every part of the converter model: the
  optional value that stands for Python's `None` sentinel, and the few
  `str` methods the program applies to prompt answers and file names
  (`strip`, `strip(chars)`, `lower`, `endswith`).
*/
module Common {

  /** A value or Python's `None`. */
  datatype Option<+T> = None | Some(value: T)

  /** What a run of `input()` prompts produced, and the answers still unread.
      Answers are consumed front to back; running out of them is how the
      model expresses `input()` raising `EOFError`. */
  datatype Answered<+T> = Answered(value: T, rest: seq<string>)

  /** Why an interactive run stopped before handing work to a converter.
      The first five print a message and return from `main`; the last two
      are exceptions `main` does not catch. */
  datatype Halt =
    | PathMissing              // the typed path does not exist
    | UnsupportedFormat        // the format is not in the supported list
    | InvalidQuality           // the quality does not validate
    | InvalidResizeAnswer      // not yes/y/no/n/blank at the resize question
    | InvalidNormalizeAnswer   // not yes/y/no/n/blank at the normalize question
    | InputExhausted           // input() raised EOFError
    | NoFileName               // with_name/with_suffix on a path without a name

  /** A run of prompts that either produced a value, leaving `rest` unread,
      or stopped. */
  datatype Prompted<+T> = Got(value: T, rest: seq<string>) | Halted(halt: Halt)

  /** A (stripped, lower-cased) answer the prompts take as yes. */
  predicate IsYes(answer: string) {
    answer == "yes" || answer == "y"
  }

  /** The characters `str.strip()` removes, restricted to the ASCII and
      Latin-1 range (Python's full Unicode whitespace table is not modelled). */
  predicate IsSpace(c: char) {
    c == ' ' || ('\t' <= c <= '\r') || ('\U{1C}' <= c <= '\U{1F}')
    || c == '\U{85}' || c == '\U{A0}'
  }

  /** `s` without the run of leading characters that `drop` selects. */
  function TrimStart(s: string, drop: char -> bool): (r: string)
    ensures |r| <= |s| && r == s[|s| - |r|..]
    ensures forall k :: 0 <= k < |s| - |r| ==> drop(s[k])
    ensures |r| > 0 ==> !drop(r[0])
  {
    if |s| > 0 && drop(s[0]) then TrimStart(s[1..], drop) else s
  }

  /** `s` without the run of trailing characters that `drop` selects. */
  function TrimEnd(s: string, drop: char -> bool): (r: string)
    ensures |r| <= |s| && r == s[..|r|]
    ensures forall k :: |r| <= k < |s| ==> drop(s[k])
    ensures |r| > 0 ==> !drop(r[|r| - 1])
  {
    if |s| > 0 && drop(s[|s| - 1]) then TrimEnd(s[..|s| - 1], drop) else s
  }

  /** Python's `s.strip(chars)`: both runs removed. The result is a slice
      of `s` with only removable characters before and after it, it keeps
      no removable character at either end, and a string that already has
      none there is returned unchanged. */
  function Trim(s: string, drop: char -> bool): (r: string)
    ensures |r| <= |s|
    ensures SliceBetweenDropped(r, s, drop)
    ensures |r| > 0 ==> !drop(r[0]) && !drop(r[|r| - 1])
    ensures |s| > 0 && !drop(s[0]) && !drop(s[|s| - 1]) ==> r == s
  {
    TrimSlice(s, drop);
    TrimEnd(TrimStart(s, drop), drop)
  }

  /** `r` is a slice of `s` with nothing but `drop` characters before and
      after it: a prefix of `s[i..]` for some `i`. */
  ghost predicate SliceBetweenDropped(r: string, s: string, drop: char -> bool) {
    exists i :: 0 <= i <= |s| && r <= s[i..]
      && (forall k :: 0 <= k < i ==> drop(s[k]))
      && (forall k :: i + |r| <= k < |s| ==> drop(s[k]))
  }

  /** What `Trim` keeps is the slice between the two removed runs. */
  lemma TrimSlice(s: string, drop: char -> bool)
    ensures SliceBetweenDropped(TrimEnd(TrimStart(s, drop), drop), s, drop)
  {
    var t := TrimStart(s, drop);
    var r := TrimEnd(t, drop);
    var i := |s| - |t|;
    assert t == s[i..];
    assert r <= t;
    forall k | i + |r| <= k < |s|
      ensures drop(s[k])
    {
      assert s[k] == t[k - i];
    }
  }

  /** Python's `s.strip()`. */
  function Strip(s: string): string {
    Trim(s, IsSpace)
  }

  /** Python's `s.strip(c)` for a single character `c`. */
  function StripChar(s: string, c: char): string {
    Trim(s, x => x == c)
  }

  /** `str.lower()` on one character, for the ASCII letters only. */
  function LowerChar(c: char): char {
    if 'A' <= c <= 'Z' then (c as int + 32) as char else c
  }

  /** `str.lower()`, ASCII letters only: no upper-case letter is left, and
      the only characters that change are upper-case letters, each becoming
      its lower-case partner 32 code points on. */
  function Lower(s: string): (r: string)
    ensures |r| == |s|
    ensures forall k :: 0 <= k < |r| ==> !('A' <= r[k] <= 'Z')
    ensures forall k :: 0 <= k < |s| && r[k] != s[k] ==>
              'A' <= s[k] <= 'Z' && r[k] as int == s[k] as int + 32
  {
    seq(|s|, k requires 0 <= k < |s| => LowerChar(s[k]))
  }

  /** `s.endswith(suffix)`. */
  predicate EndsWith(s: string, suffix: string) {
    |suffix| <= |s| && s[|s| - |suffix|..] == suffix
  }

  /** Lower-casing is idempotent, so a lower-cased answer compared against
      lower-case keywords is insensitive to how often it was lowered. */
  lemma LowerIdempotent(s: string)
    ensures Lower(Lower(s)) == Lower(s)
  {
  }

  /** Stripping twice removes nothing more than stripping once. */
  lemma TrimIdempotent(s: string, drop: char -> bool)
    ensures Trim(Trim(s, drop), drop) == Trim(s, drop)
  {
  }
}

=== FILE: converter_main.dfy ===
/**
  `main` of `source/main.py` as a request builder: it consumes the prompt
  answers front to back, either stops (a message and return, or an uncaught
  exception) or yields the job it hands to one of the converters, together
  with the answers still unread (an animated GIF or a GIF folder reads more
  later). Whether the typed path exists and is a directory are parameters.
*/
module ConverterMain {
  import opened Common
  import opened Integers
  import opened Paths
  import opened Formats
  import opened Utils
  import opened AudioProcessing

  const SupportedFormats: seq<string> := ["jpg", "jpeg", "png", "bmp", "ico", "gif", "webp", "aac"]
  const DefaultQuality := 85
  const IcoSizes: seq<(int, int)> := [(16, 16), (32, 32), (48, 48), (64, 64), (128, 128), (256, 256)]

  /** The audio options of a request for an image format. */
  const NoAudio := AudioSettings(None, None, None, false)

  /** The supported names are exactly the names of the eight formats. */
  lemma SupportedFormatsAreFormats(s: string)
    ensures s in SupportedFormats <==> ParseFormat(s).Some?
  {
  }

  /** The options `main` collects before dispatching. */
  datatype Request = Request(format: Format, quality: Option<int>, resize: Option<Dim>, audio: AudioSettings)

  /** The converter call `main` ends with. */
  datatype Job =
    | FolderImages(folder: Path, request: Request)              // convert_folder_images
    | FolderAudio(folder: Path, request: Request)               // convert_folder_audio
    | FileImage(input: Path, output: string, request: Request)  // process_image
    | FileAudio(input: Path, output: string, request: Request)  // process_audio

  predicate IsFolderJob(j: Job) {
    j.FolderImages? || j.FolderAudio?
  }

  predicate IsAudioJob(j: Job) {
    j.FolderAudio? || j.FileAudio?
  }

  /** An answer `main` takes as no; a blank answer keeps the original. */
  predicate IsNo(answer: string) {
    answer == "no" || answer == "n" || answer == ""
  }

  /** The formats for which the quality prompt is shown. */
  predicate AsksQuality(fmt: Format) {
    FormatName(fmt) !in ["bmp", "ico", "gif", "aac"]
  }

  /** The square ICO presets. */
  predicate IsIcoPreset(d: Dim) {
    exists k :: 0 <= k < |IcoSizes| && d == Dim(Some(IcoSizes[k].0), Some(IcoSizes[k].1))
  }

  /** What every request `main` hands on satisfies: a quality in [1, 100]
      exactly for the formats that take one; no resize for AAC and only a
      preset for ICO; audio options only for AAC, each within its range. */
  predicate WellFormed(req: Request) {
    && (req.quality.Some? <==> AsksQuality(req.format))
    && (req.quality.Some? ==> 1 <= req.quality.value <= 100)
    && (req.format == Aac ==> req.resize.None?)
    && (req.format == Ico && req.resize.Some? ==> IsIcoPreset(req.resize.value))
    && (req.format != Aac ==> req.audio == NoAudio)
    && (req.audio.bitrate.Some? ==> 32 <= req.audio.bitrate.value <= 320)
    && (req.audio.channels.Some? ==> req.audio.channels.value in {1, 2})
    && (req.audio.frequency.Some? ==> 8000 <= req.audio.frequency.value <= 48000)
  }

  /** The quality a (stripped) answer to the quality prompt stands for: the
      default 85 for a blank answer, otherwise what `int()` reads. */
  function QualityAnswer(typed: string): Option<int> {
    if typed == "" then Some(DefaultQuality) else ParseInt(typed)
  }

  /** The quality prompt: shown only for jpg/jpeg/png/webp; a blank answer
      means the default 85; a value outside [1, 100] or not a number ends
      the run. */
  function AskQuality(fmt: Format, answers: seq<string>): (r: Prompted<Option<int>>)
    ensures !AsksQuality(fmt) ==> r == Got(None, answers)
    ensures AsksQuality(fmt) && |answers| == 0 ==> r == Halted(InputExhausted)
    ensures AsksQuality(fmt) && |answers| > 0 ==>
              var q := QualityAnswer(Strip(answers[0]));
              if q.Some? && 1 <= q.value <= 100 then r == Got(q, answers[1..])
              else r == Halted(InvalidQuality)
    ensures r.Got? ==>
              && (r.value.Some? <==> AsksQuality(fmt))
              && (r.value.Some? ==> 1 <= r.value.value <= 100)
              && |r.rest| <= |answers|
  {
    if !AsksQuality(fmt) then Got(None, answers)
    else if |answers| == 0 then Halted(InputExhausted)
    else
      var typed := Strip(answers[0]);
      ParseShowInt(DefaultQuality);
      var q := ValidateQuality(if typed == "" then ShowInt(DefaultQuality) else typed, FormatName(fmt));
      if q.None? then Halted(InvalidQuality) else Got(q, answers[1..])
  }

  /** The preset a typed ICO choice selects, if it is a number from 1 to 6. */
  function IcoChoice(typed: string): (d: Option<Dim>)
    ensures d.Some? ==> IsIcoPreset(d.value)
    ensures d.Some? <==> ParseInt(typed).Some? && 1 <= ParseInt(typed).value <= |IcoSizes|
    ensures d.Some? ==>
              d.value == Dim(Some(IcoSizes[ParseInt(typed).value - 1].0), Some(IcoSizes[ParseInt(typed).value - 1].1))
  {
    match ParseInt(typed)
    case Some(k) =>
      if 1 <= k <= |IcoSizes| then Some(Dim(Some(IcoSizes[k - 1].0), Some(IcoSizes[k - 1].1)))
      else None
    case None => None
  }

  /** The resize prompts. AAC is never resized. ICO offers the presets and
      falls back to no resize on any other answer, never ending the run.
      The other image formats take yes/y (then a width and a height, each
      read as a number or `None`), no/n/blank (no resize), and end the run
      on anything else. */
  function AskResize(fmt: Format, answers: seq<string>): (r: Prompted<Option<Dim>>)
    ensures fmt == Aac ==> r == Got(None, answers)
    ensures fmt != Aac && |answers| == 0 ==> r == Halted(InputExhausted)
    ensures fmt == Ico && |answers| > 0 ==> r == Got(IcoChoice(Strip(answers[0])), answers[1..])
    ensures fmt != Aac && fmt != Ico && |answers| > 0 ==>
              var choice := Lower(Strip(answers[0]));
              && (IsYes(choice) && |answers| >= 3 ==>
                    r == Got(Some(Dim(ParseInt(answers[1]), ParseInt(answers[2]))), answers[3..]))
              && (IsYes(choice) && |answers| < 3 ==> r == Halted(InputExhausted))
              && (IsNo(choice) ==> r == Got(None, answers[1..]))
              && (!IsYes(choice) && !IsNo(choice) ==> r == Halted(InvalidResizeAnswer))
    ensures r.Got? ==>
              && (fmt == Aac ==> r.value.None?)
              && (fmt == Ico && r.value.Some? ==> IsIcoPreset(r.value.value))
              && |r.rest| <= |answers|
  {
    if fmt == Aac then Got(None, answers)
    else if |answers| == 0 then Halted(InputExhausted)
    else if fmt == Ico then Got(IcoChoice(Strip(answers[0])), answers[1..])
    else AskSizes(Lower(Strip(answers[0])), answers[1..])
  }

  /** The yes/no resize question of the formats other than ICO and AAC,
      given the (stripped, lower-cased) choice and the answers after it. */
  function AskSizes(choice: string, answers: seq<string>): (r: Prompted<Option<Dim>>)
    ensures IsYes(choice) && |answers| >= 2 ==>
              r == Got(Some(Dim(ParseInt(answers[0]), ParseInt(answers[1]))), answers[2..])
    ensures IsYes(choice) && |answers| < 2 ==> r == Halted(InputExhausted)
    ensures IsNo(choice) ==> r == Got(None, answers)
    ensures !IsYes(choice) && !IsNo(choice) ==> r == Halted(InvalidResizeAnswer)
  {
    if IsYes(choice) then
      if |answers| < 2 then Halted(InputExhausted)
      else
        ParseIntStrip(answers[0]);
        ParseIntStrip(answers[1]);
        Got(Some(ValidateResize(Strip(answers[0]), Strip(answers[1]))), answers[2..])
    else if IsNo(choice) then Got(None, answers)
    else Halted(InvalidResizeAnswer)
  }

  /** The audio prompts, shown only for AAC: bitrate, channels and frequency
      never end the run (an invalid value becomes `None`); the normalize
      answer takes yes/y, no/n/blank, and ends the run on anything else. */
  function AskAudio(fmt: Format, answers: seq<string>): (r: Prompted<AudioSettings>)
    ensures fmt != Aac ==> r == Got(NoAudio, answers)
    ensures fmt == Aac && |answers| < 4 ==> r == Halted(InputExhausted)
    ensures fmt == Aac && |answers| >= 4 ==>
              var normalize := Lower(Strip(answers[3]));
              && (r.Halted? <==> !IsYes(normalize) && !IsNo(normalize))
              && (r.Halted? ==> r.halt == InvalidNormalizeAnswer)
              && (r.Got? ==>
                    && r.rest == answers[4..]
                    && r.value.normalize == IsYes(normalize)
                    && r.value.bitrate == ValidateBitrate(Strip(answers[0]))
                    && r.value.channels == ValidateChannels(Strip(answers[1]))
                    && r.value.frequency == ValidateFrequency(Strip(answers[2])))
    ensures r.Got? ==>
              && (fmt != Aac ==> r.value == NoAudio)
              && |r.rest| <= |answers|
              && (r.value.bitrate.Some? ==> 32 <= r.value.bitrate.value <= 320)
              && (r.value.channels.Some? ==> r.value.channels.value in {1, 2})
              && (r.value.frequency.Some? ==> 8000 <= r.value.frequency.value <= 48000)
  {
    if fmt != Aac then Got(NoAudio, answers)
    else if |answers| < 4 then Halted(InputExhausted)
    else
      var bitrate := ValidateBitrate(Strip(answers[0]));
      var channels := ValidateChannels(Strip(answers[1]));
      var frequency := ValidateFrequency(Strip(answers[2]));
      var normalize := Lower(Strip(answers[3]));
      if IsYes(normalize) then
        Got(AudioSettings(bitrate, channels, frequency, true), answers[4..])
      else if IsNo(normalize) then
        Got(AudioSettings(bitrate, channels, frequency, false), answers[4..])
      else Halted(InvalidNormalizeAnswer)
  }

  /** The option prompts for a format: quality, then resize on the answers
      the quality prompt left, then audio on the answers after those. The
      run goes on exactly when no stage stops it, and the request carries
      what each stage produced. */
  function AskOptions(fmt: Format, answers: seq<string>): (r: Prompted<Request>)
    ensures r.Got? ==> WellFormed(r.value) && r.value.format == fmt && |r.rest| <= |answers|
    ensures r.Got? && AsksQuality(fmt) ==> |answers| > 0 && r.value.quality == QualityAnswer(Strip(answers[0]))
    ensures var q := AskQuality(fmt, answers);
            r.Got? <==>
              && q.Got?
              && AskResize(fmt, q.rest).Got?
              && AskAudio(fmt, AskResize(fmt, q.rest).rest).Got?
    ensures var q := AskQuality(fmt, answers);
            r.Got? ==>
              && q.Got? && AskResize(fmt, q.rest).Got?
              && r.value.quality == q.value
              && r.value.resize == AskResize(fmt, q.rest).value
              && r.value.audio == AskAudio(fmt, AskResize(fmt, q.rest).rest).value
              && r.rest == AskAudio(fmt, AskResize(fmt, q.rest).rest).rest
  {
    match AskQuality(fmt, answers)
    case Halted(h) => Halted(h)
    case Got(quality, rest) =>
      match AskResize(fmt, rest)
      case Halted(h) => Halted(h)
      case Got(resize, rest') =>
        match AskAudio(fmt, rest')
        case Halted(h) => Halted(h)
        case Got(audio, rest'') => Got(Request(fmt, quality, resize, audio), rest'')
  }

  /** The single-file output path: `with_name("expo_" + stem)` and then
      `with_suffix("." + format)`, so it stays in the input's directory.
      `None` where pathlib raises because the input has no name. */
  function SingleOutput(input: Path, fmt: Format): (r: Option<Path>)
    ensures r.Some? <==> Name(input) != ""
    ensures r.Some? ==>
              && Parent(r.value) == Parent(input)
              && Name(r.value) == Stem("expo_" + Stem(Name(input))) + "." + FormatName(fmt)
  {
    if Name(input) == "" then None
    else
      match WithName(input, ExpoName(Name(input)))
      case None => None
      case Some(named) => WithSuffix(named, DotFormat(fmt))
  }

  /** When the input's stem has no dot left, the output is named
      `expo_<stem>.<format>`. */
  lemma SingleOutputName(input: Path, fmt: Format)
    requires Name(input) != "" && NoDot(Stem(Name(input)))
    ensures SingleOutput(input, fmt).Some?
    ensures Name(SingleOutput(input, fmt).value) == "expo_" + Stem(Name(input)) + "." + FormatName(fmt)
  {
    var s := "expo_" + Stem(Name(input));
    assert s[4] == '_';
    assert NoDot(s) by {
      assert forall k :: 5 <= k < |s| ==> s[k] == Stem(Name(input))[k - 5];
    }
    assert LastIndexOf(s, '.') == -1;
  }

  /** A name with two dots loses its middle piece: `a.b.png` becomes
      `expo_a.jpg`, since `with_suffix` replaces the `.b` that `with_name`
      left as the new suffix. */
  lemma SingleOutputMultiDot()
    ensures SingleOutput(Path(false, ["a.b.png"]), Jpg) == Some(Path(false, ["expo_a.jpg"]))
  {
    var input := Path(false, ["a.b.png"]);
    StemOfMultiDot();
    var named := ExpoName(Name(input));
    assert Stem(named) + DotFormat(Jpg) == "expo_a.jpg";
  }

  lemma StemOfMultiDot()
    ensures Stem("expo_" + Stem("a.b.png")) == "expo_a"
  {
    var name := "a.b.png";
    assert name[3] == '.' && name[4] != '.' && name[5] != '.' && name[6] != '.';
    assert LastIndexOf(name, '.') == 3;
    assert Stem(name) == "a.b";
    var named := "expo_a.b";
    assert named[6] == '.' && named[7] != '.';
    assert LastIndexOf(named, '.') == 6;
  }

  /** The converter call for a request, by path kind and format. */
  function Dispatch(path: string, isDir: bool, req: Request, rest: seq<string>): (r: Prompted<Job>)
    ensures r.Halted? <==> !isDir && Name(ParsePath(path)) == ""
    ensures r.Halted? ==> r.halt == NoFileName
    ensures r.Got? ==>
              && r.rest == rest && r.value.request == req
              && (IsFolderJob(r.value) <==> isDir)
              && (IsAudioJob(r.value) <==> req.format == Aac)
    ensures r.Got? && IsFolderJob(r.value) ==> r.value.folder == ParsePath(path)
    ensures r.Got? && !IsFolderJob(r.value) ==>
              && r.value.input == ParsePath(path)
              && Parent(ParsePath(r.value.output)) == Parent(ParsePath(path))
              && Name(ParsePath(r.value.output)) == Stem("expo_" + Stem(Name(ParsePath(path)))) + "." + FormatName(req.format)
  {
    var p := ParsePath(path);
    if isDir then Got(if req.format == Aac then FolderAudio(p, req) else FolderImages(p, req), rest)
    else
      match SingleOutput(p, req.format)
      case None => Halted(NoFileName)
      case Some(out) =>
        ParseRender(out);
        var output := Render(out);
        Got(if req.format == Aac then FileAudio(p, output, req) else FileImage(p, output, req), rest)
  }

  /** `main` from the format prompt on, once the path has been found. */
  function FromFormat(path: string, isDir: bool, answers: seq<string>): (r: Prompted<Job>)
    ensures r.Got? <==>
              && |answers| > 0 && ParseFormat(Lower(Strip(answers[0]))).Some?
              && AskOptions(ParseFormat(Lower(Strip(answers[0]))).value, answers[1..]).Got?
              && (isDir || Name(ParsePath(path)) != "")
    ensures |answers| == 0 ==> r == Halted(InputExhausted)
    ensures |answers| > 0 && Lower(Strip(answers[0])) !in SupportedFormats ==> r == Halted(UnsupportedFormat)
    ensures r.Got? ==>
              && |answers| > 0
              && FormatName(r.value.request.format) == Lower(Strip(answers[0]))
              && WellFormed(r.value.request)
              && (IsFolderJob(r.value) <==> isDir)
              && (IsAudioJob(r.value) <==> r.value.request.format == Aac)
              && |r.rest| < |answers|
    ensures r.Got? && AsksQuality(r.value.request.format) ==>
              |answers| > 1 && r.value.request.quality == QualityAnswer(Strip(answers[1]))
    ensures r.Got? ==>
              && AskOptions(r.value.request.format, answers[1..]).Got?
              && r.value.request == AskOptions(r.value.request.format, answers[1..]).value
    ensures r.Got? && IsFolderJob(r.value) ==> r.value.folder == ParsePath(path)
    ensures r.Got? && !IsFolderJob(r.value) ==>
              && r.value.input == ParsePath(path)
              && Parent(ParsePath(r.value.output)) == Parent(ParsePath(path))
              && Name(ParsePath(r.value.output))
                 == Stem("expo_" + Stem(Name(ParsePath(path)))) + "." + FormatName(r.value.request.format)
  {
    if |answers| == 0 then Halted(InputExhausted)
    else
      var typed := Lower(Strip(answers[0]));
      SupportedFormatsAreFormats(typed);
      match ParseFormat(typed)
      case None => Halted(UnsupportedFormat)
      case Some(fmt) =>
        match AskOptions(fmt, answers[1..])
        case Halted(h) => Halted(h)
        case Got(req, rest) => Dispatch(path, isDir, req, rest)
  }

  /** `main` over the prompt answers. The path is checked first, then the
      format, before any other option is asked; a run that reaches the
      converters hands on a well-formed request for the format typed, to the
      folder converter exactly for a directory and to the audio side
      exactly for AAC. */
  function Main(answers: seq<string>, fs: PathFacts): (r: Prompted<Job>)
    ensures r.Got? <==>
              && |answers| > 1 && fs.present && ParseFormat(Lower(Strip(answers[1]))).Some?
              && AskOptions(ParseFormat(Lower(Strip(answers[1]))).value, answers[2..]).Got?
              && (fs.isDir || Name(ParsePath(StripChar(Strip(answers[0]), '"'))) != "")
    ensures |answers| == 0 ==> r == Halted(InputExhausted)
    ensures |answers| > 0 && !fs.present ==> r == Halted(PathMissing)
    ensures |answers| == 1 && fs.present ==> r == Halted(InputExhausted)
    ensures |answers| > 1 && fs.present && Lower(Strip(answers[1])) !in SupportedFormats ==>
              r == Halted(UnsupportedFormat)
    ensures r.Got? ==>
              && |answers| > 1 && fs.present
              && FormatName(r.value.request.format) == Lower(Strip(answers[1]))
              && WellFormed(r.value.request)
              && (IsFolderJob(r.value) <==> fs.isDir)
              && (IsAudioJob(r.value) <==> r.value.request.format == Aac)
              && |r.rest| < |answers|
    ensures r.Got? && AsksQuality(r.value.request.format) ==>
              |answers| > 2 && r.value.request.quality == QualityAnswer(Strip(answers[2]))
    ensures r.Got? ==>
              && AskOptions(r.value.request.format, answers[2..]).Got?
              && r.value.request == AskOptions(r.value.request.format, answers[2..]).value
    ensures r.Got? && IsFolderJob(r.value) ==>
              r.value.folder == ParsePath(StripChar(Strip(answers[0]), '"'))
    ensures r.Got? && !IsFolderJob(r.value) ==>
              && r.value.input == ParsePath(StripChar(Strip(answers[0]), '"'))
              && Parent(ParsePath(r.value.output)) == Parent(r.value.input)
              && Name(ParsePath(r.value.output))
                 == Stem("expo_" + Stem(Name(r.value.input))) + "." + FormatName(r.value.request.format)
  {
    if |answers| == 0 then Halted(InputExhausted)
    else if !fs.present then Halted(PathMissing)
    else
      var path := StripChar(Strip(answers[0]), '"');
      FromFormat(path, fs.isDir, answers[1..])
  }

  /** Choosing preset `k` (typed as `str(k)`) for an ICO file resizes to the
      k-th square size. */
  lemma IcoPresetChoice(k: int, answers: seq<string>)
    requires 1 <= k <= |IcoSizes| && |answers| > 0 && answers[0] == ShowInt(k)
    ensures AskResize(Ico, answers)
            == Got(Some(Dim(Some(IcoSizes[k - 1].0), Some(IcoSizes[k - 1].1))), answers[1..])
  {
    ParseShowInt(k);
    assert !IsSpace(answers[0][0]) && !IsSpace(answers[0][|answers[0]| - 1]);
    assert Strip(answers[0]) == answers[0];
  }
}

=== FILE: files_converter.dfy ===
/**
  The older stand-alone script `files_converter.py`: JPEG and PNG output
  only, its own quality and resize prompts, a `process_image` without the
  animated-GIF branch, a folder converter that mirrors the input tree under
  a sibling `expo_<name>` folder, and a single-file output prompt with a
  Desktop shortcut. The home directory and what the filesystem says about
  the typed path are parameters.
*/
module FilesConverter {
  import opened Common
  import opened Integers
  import opened Paths
  import opened Formats
  import Utils
  import opened ImageProcessing
  import opened Batch

  const SupportedFormats: seq<string> := ["jpg", "jpeg", "png"]

  /** `validate_quality`: the parsed integer exactly when it lies in [1, 100]. */
  function ValidateQuality(text: string): (r: Option<int>)
    ensures r.Some? <==> ParseInt(text).Some? && 1 <= ParseInt(text).value <= 100
    ensures r.Some? ==> r == ParseInt(text)
  {
    match ParseInt(text)
    case Some(q) => if 1 <= q <= 100 then Some(q) else None
    case None => None
  }

  /** The script's quality check is the package's check for every format
      that takes a quality. */
  lemma ValidateQualityAgrees(text: string, format: string)
    requires format !in Utils.NoQualityFormats
    ensures ValidateQuality(text) == Utils.ValidateQuality(text, format)
  {
  }

  /** `validate_resize`, which reads its own two prompts: both numbers or
      nothing. A width that is not a number ends it before the height is
      asked; there is no sign or range check. */
  function ReadResize(answers: seq<string>): (r: Prompted<Option<(int, int)>>)
    ensures r.Halted? <==> |answers| == 0 || (|answers| == 1 && ParseInt(answers[0]).Some?)
    ensures r.Halted? ==> r.halt == InputExhausted
    ensures r.Got? ==>
              (r.value.Some? <==> |answers| >= 2 && ParseInt(answers[0]).Some? && ParseInt(answers[1]).Some?)
    ensures r.Got? && r.value.Some? ==>
              && Some(r.value.value.0) == ParseInt(answers[0])
              && Some(r.value.value.1) == ParseInt(answers[1])
              && r.rest == answers[2..]
    ensures r.Got? && ParseInt(answers[0]).None? ==> r.rest == answers[1..]
    ensures r.Got? ==> |r.rest| < |answers|
  {
    if |answers| == 0 then Halted(InputExhausted)
    else
      ParseIntStrip(answers[0]);
      match ParseInt(Strip(answers[0]))
      case None => Got(None, answers[1..])
      case Some(width) =>
        if |answers| == 1 then Halted(InputExhausted)
        else
          ParseIntStrip(answers[1]);
          match ParseInt(Strip(answers[1]))
          case None => Got(None, answers[2..])
          case Some(height) => Got(Some((width, height)), answers[2..])
  }

  /** The save call for the script's two targets. */
  function JpegSave(outputFile: string, quality: int): SaveCall {
    SaveCall(outputFile, RGB, Some(quality), true, true, None)
  }

  function PngSave(outputFile: string, m: Mode, quality: int): SaveCall {
    SaveCall(outputFile, m, None, true, false, Some(10 - quality / 10))
  }

  /** The script's JPEG branch: always saved as RGB with the quality, an
      RGBA image flattened on white through its alpha band, every other
      mode converted, an LA image failing for want of a fourth band. The
      mode change is the package's table for JPEG. */
  function JpegBranch(m: Mode, outputFile: string, quality: int): (r: SaveResult)
    ensures r.SaveFault? <==> m == LA
    ensures r.Steps? ==> |r.ops| > 0
    ensures r.Steps? ==> r.ops[|r.ops| - 1] == Save(JpegSave(outputFile, quality))
    ensures r.Steps? ==> ModeAfter(m, r.ops[..|r.ops| - 1]) == RGB
    ensures m == RGBA ==> r.Steps? && r.ops[..|r.ops| - 1] == [FlattenOnWhite(3)]
    ensures m != RGBA && m != LA ==> r.Steps? && r.ops[..|r.ops| - 1] == [Convert(RGB)]
    ensures r.Steps? ==> ModeOps(JpegFile, m) == Some(r.ops[..|r.ops| - 1])
  {
    if m == RGBA || m == LA then
      if 3 < Bands(m) then Steps([FlattenOnWhite(3), Save(JpegSave(outputFile, quality))])
      else SaveFault(NoMaskBand)
    else Steps([Convert(RGB), Save(JpegSave(outputFile, quality))])
  }

  /** The script's PNG branch: RGBA, RGB, LA and L kept with no change,
      anything else converted to RGBA, `compress_level = 10 - quality // 10`.
      The mode change is the package's table for PNG. */
  function PngBranch(m: Mode, outputFile: string, quality: int): (r: SaveResult)
    ensures r.Steps? && |r.ops| > 0
    ensures r.ops[|r.ops| - 1].Save? && r.ops[|r.ops| - 1].call.path == outputFile
    ensures r.ops[|r.ops| - 1].call.mode == ModeAfter(m, r.ops[..|r.ops| - 1])
    ensures r.ops[|r.ops| - 1].call.mode in {RGBA, RGB, LA, L}
    ensures m in {RGBA, RGB, LA, L} ==> r.ops == [Save(PngSave(outputFile, m, quality))]
    ensures m !in {RGBA, RGB, LA, L} ==> r.ops[..|r.ops| - 1] == [Convert(RGBA)]
    ensures m !in {RGBA, RGB, LA, L} ==> r.ops[|r.ops| - 1].call.mode == RGBA
    ensures r.ops[|r.ops| - 1].call.compressLevel == Some(CompressLevel(quality))
    ensures ModeOps(PngFile, m) == Some(r.ops[..|r.ops| - 1])
  {
    if m in {RGBA, RGB, LA, L} then Steps([Save(PngSave(outputFile, m, quality))])
    else
      assert ModeAfter(m, [Convert(RGBA)]) == RGBA;
      Steps([Convert(RGBA), Save(PngSave(outputFile, RGBA, quality))])
  }

  /** The format branch of the script's `process_image`: JPEG for a name
      ending in ".jpg" or ".jpeg", PNG for ".png", and any other name
      writes nothing. */
  function SaveAs(m: Mode, outputFile: string, quality: int): (r: SaveResult)
    ensures r.SaveFault? <==> (EndsWith(outputFile, ".jpg") || EndsWith(outputFile, ".jpeg")) && m == LA
    ensures !EndsWith(outputFile, ".jpg") && !EndsWith(outputFile, ".jpeg") && !EndsWith(outputFile, ".png") ==>
              r == Steps([])
  {
    if EndsWith(outputFile, ".jpg") || EndsWith(outputFile, ".jpeg") then JpegBranch(m, outputFile, quality)
    else if EndsWith(outputFile, ".png") then PngBranch(m, outputFile, quality)
    else Steps([])
  }

  /** On the names the script handles, its table is the package's
      `save_image` table; on every other name the script writes nothing. */
  lemma SaveAsAgrees(m: Mode, outputFile: string, quality: int)
    ensures TargetOf(outputFile) == Some(JpegFile) || TargetOf(outputFile) == Some(PngFile) ==>
              SaveAs(m, outputFile, quality) == SaveImage(m, outputFile, Some(quality))
    ensures TargetOf(outputFile) != Some(JpegFile) && TargetOf(outputFile) != Some(PngFile) ==>
              SaveAs(m, outputFile, quality) == Steps([])
  {
    if TargetOf(outputFile) == Some(JpegFile) {
      SaveAsAgreesJpeg(m, outputFile, quality);
    } else if TargetOf(outputFile) == Some(PngFile) {
      SaveAsAgreesPng(m, outputFile, quality);
    }
  }

  lemma SaveAsAgreesJpeg(m: Mode, outputFile: string, quality: int)
    requires TargetOf(outputFile) == Some(JpegFile)
    ensures SaveAs(m, outputFile, quality) == SaveImage(m, outputFile, Some(quality))
  {
    assert SaveAs(m, outputFile, quality) == JpegBranch(m, outputFile, quality);
    if m != LA {
      var prep := if m == RGBA then [FlattenOnWhite(3)] else [Convert(RGB)];
      assert ModeOps(JpegFile, m) == Some(prep);
      assert ModeAfter(m, prep) == RGB;
      assert JpegBranch(m, outputFile, quality) == Steps(prep + [Save(JpegSave(outputFile, quality))]);
    }
  }

  lemma SaveAsAgreesPng(m: Mode, outputFile: string, quality: int)
    requires TargetOf(outputFile) == Some(PngFile)
    ensures SaveAs(m, outputFile, quality) == SaveImage(m, outputFile, Some(quality))
  {
    assert SaveAs(m, outputFile, quality) == PngBranch(m, outputFile, quality);
    var prep := if m in {RGBA, RGB, LA, L} then [] else [Convert(RGBA)];
    assert ModeOps(PngFile, m) == Some(prep);
    assert ModeAfter(m, prep) == if m in {RGBA, RGB, LA, L} then m else RGBA;
    assert PngBranch(m, outputFile, quality) == Steps(prep + [Save(PngSave(outputFile, ModeAfter(m, prep), quality))]);
  }

  /** The resize pair as the package's prompts produce it. */
  function AsDim(resize: Option<(int, int)>): (d: Option<Utils.Dim>)
    ensures SizingOf(d) == if resize.Some? then ResizeTo(resize.value.0, resize.value.1) else Keep
  {
    if resize.Some? then Some(Utils.Dim(Some(resize.value.0), Some(resize.value.1))) else None
  }

  /** The script's `process_image`: resize first, then the format branch.
      There is no animated-GIF branch, so every image, animated or not, is
      saved or fails as a whole. */
  function ProcessImage(image: Option<Image>, outputFile: string, quality: int, resize: Option<(int, int)>)
    : (r: ImageOutcome)
    ensures image.None? ==> r == Failed(CannotOpen)
    ensures r.Saved? || r.Failed?
    ensures image.Some? ==> (r.Failed? <==> SaveAs(image.value.mode, outputFile, quality).SaveFault?)
    ensures r.Saved? && resize.Some? ==> |r.ops| > 0 && r.ops[0] == Resize(resize.value.0, resize.value.1)
  {
    match image
    case None => Failed(CannotOpen)
    case Some(img) =>
      match SaveAs(img.mode, outputFile, quality)
      case SaveFault(f) => Failed(f)
      case Steps(ops) => Saved(ResizeOps(SizingOf(AsDim(resize))) + ops)
  }

  /** For a JPEG or PNG name, the script does exactly what the package does
      with the same quality and resize to the image taken as a still one: the
      script has no GIF branch, so an animated GIF is saved like a still
      image. For an image that is not an animated GIF the two agree on the
      image itself. */
  lemma ProcessImageAgrees(img: Image, outputFile: string, quality: int, resize: Option<(int, int)>,
                           answers: seq<string>)
    requires TargetOf(outputFile) == Some(JpegFile) || TargetOf(outputFile) == Some(PngFile)
    ensures ProcessImage(Some(img), outputFile, quality, resize)
            == ImageProcessing.ProcessImage(Some(img.(isGif := false)), outputFile, Some(quality), AsDim(resize), answers).value
    ensures !IsAnimatedGif(img) ==>
              ProcessImage(Some(img), outputFile, quality, resize)
              == ImageProcessing.ProcessImage(Some(img), outputFile, Some(quality), AsDim(resize), answers).value
  {
    SaveAsAgrees(img.mode, outputFile, quality);
  }

  /** `Path(input_folder).parent / f"expo_{Path(input_folder).name}"`. */
  function OutputRoot(folder: Path): (root: Path)
    ensures Parent(root) == Parent(folder)
    ensures Name(root) == "expo_" + Name(folder)
  {
    var name: Part := "expo_" + Name(folder);
    Join(Parent(folder), name)
  }

  /** Lexically, a named folder's output root is a sibling: its parts never
      extend the folder's. This is a fact about the path text only; for a
      folder whose last part is `..` the root lands inside the walked folder
      on disk (see `OutputRootOfParentDirectory`). */
  lemma OutputRootOutside(folder: Path)
    requires |folder.parts| > 0
    ensures var root := OutputRoot(folder);
            !(|folder.parts| <= |root.parts| && root.parts[..|folder.parts|] == folder.parts)
  {
  }

  /** The current directory `.` has no name, so its output root `expo_`
      lies inside the folder being walked. */
  lemma OutputRootOfCurrentDirectory()
    ensures OutputRoot(ParsePath(".")) == Path(false, ["expo_"])
  {
    var s := ".";
    assert Split(s[1..]) == [""];
    assert Split(s) == [['.'] + ""];
    assert KeepParts(["."]) == [];
    assert ParsePath(s) == Path(false, []);
    assert "expo_" + Name(Path(false, [])) == "expo_";
  }

  /** The parent directory `..` is a name to pathlib, and its lexical parent
      is the current directory, so its output root is `./expo_..`. The
      current directory lies inside `..`, so on disk this root, and every
      file written under it, lies inside the folder being walked. */
  lemma OutputRootOfParentDirectory()
    ensures ParsePath("..") == Path(false, [".."])
    ensures OutputRoot(ParsePath("..")) == Path(false, ["expo_.."])
    ensures Parent(OutputRoot(ParsePath(".."))) == ParsePath(".")
  {
    SplitNoSlash("..");
    assert KeepParts([".."]) == [".."] + KeepParts([]);
    SplitNoSlash(".");
    assert KeepParts(["."]) == KeepParts([]);
    var folder := ParsePath("..");
    assert Parent(folder) == Path(false, []) && Name(folder) == "..";
    assert "expo_" + ".." == "expo_..";
  }

  /** `path.relative_to(base)`, or `None` where pathlib raises. */
  function RelativeTo(p: Path, base: Path): (r: Option<Path>)
    ensures r.Some? <==>
              p.absolute == base.absolute && |base.parts| <= |p.parts| && p.parts[..|base.parts|] == base.parts
    ensures r.Some? ==> !r.value.absolute && base.parts + r.value.parts == p.parts
  {
    if p.absolute == base.absolute && |base.parts| <= |p.parts| && p.parts[..|base.parts|] == base.parts then
      Some(Path(false, p.parts[|base.parts|..]))
    else None
  }

  /** `p / q` for a relative `q`: the path that `relative_to(p)` takes back
      to `q`. */
  function JoinPath(p: Path, q: Path): (r: Path)
    requires !q.absolute
    ensures RelativeTo(r, p) == Some(q)
  {
    assert (p.parts + q.parts)[..|p.parts|] == p.parts;
    assert (p.parts + q.parts)[|p.parts|..] == q.parts;
    Path(p.absolute, p.parts + q.parts)
  }

  /** The name a file gets in the mirrored tree: its suffix replaced. */
  function MirroredName(name: Part, fmt: Format): (n: Part)
    ensures Stem(n) == Stem(name) && Suffix(n) == "." + FormatName(fmt)
  {
    StemSuffixSplit(name);
    DottedName(Stem(name), FormatName(fmt));
    Stem(name) + "." + FormatName(fmt)
  }

  /** Where `convert_folder` writes one file: the file's place under the
      walked folder, with its suffix replaced, under the output root. */
  function MirroredPath(folder: Path, e: Entry<Option<Image>>, fmt: Format): (p: Path)
    ensures RelativeTo(p, OutputRoot(folder)) == Some(Path(false, e.relDir + [MirroredName(e.name, fmt)]))
  {
    var root := OutputRoot(folder);
    var p := Path(root.absolute, root.parts + (e.relDir + [MirroredName(e.name, fmt)]));
    assert p.parts[..|root.parts|] == root.parts;
    p
  }

  /** `MirroredPath` is `output_folder / relative_path.with_suffix(...)`
      computed the way the code does it. */
  lemma MirroredPathByPathlib(folder: Path, e: Entry<Option<Image>>, fmt: Format)
    ensures var rel := RelativeTo(FileOf(folder, e), folder);
            && rel.Some?
            && WithSuffix(rel.value, "." + FormatName(fmt)).Some?
            && MirroredPath(folder, e, fmt)
               == JoinPath(OutputRoot(folder), WithSuffix(rel.value, "." + FormatName(fmt)).value)
  {
    InputRelative(folder, e);
    RenamedRelative(e, fmt);
  }

  /** Replacing the suffix of a relative file path renames just its file. */
  lemma RenamedRelative(e: Entry<Option<Image>>, fmt: Format)
    ensures WithSuffix(Path(false, e.relDir + [e.name]), "." + FormatName(fmt))
            == Some(Path(false, e.relDir + [MirroredName(e.name, fmt)]))
  {
    var rel := Path(false, e.relDir + [e.name]);
    var renamed := RenamedParts(rel, e.relDir, e.name, fmt);
    ParentJoinName(renamed);
  }

  /** The parent and name of a relative file path after `with_suffix`. */
  lemma RenamedParts(rel: Path, dir: seq<Part>, name: Part, fmt: Format) returns (renamed: Path)
    requires rel == Path(false, dir + [name])
    ensures WithSuffix(rel, "." + FormatName(fmt)) == Some(renamed)
    ensures Parent(renamed) == Path(false, dir) && Name(renamed) == MirroredName(name, fmt)
  {
    var suffix := DotFormat(fmt);
    RelativeFileParts(dir, name);
    renamed := WithSuffix(rel, suffix).value;
    assert Stem(name) + suffix == MirroredName(name, fmt);
  }

  lemma RelativeFileParts(dir: seq<Part>, name: Part)
    ensures Name(Path(false, dir + [name])) == name
    ensures Parent(Path(false, dir + [name])) == Path(false, dir)
  {
    assert (dir + [name])[..|dir|] == dir;
  }

  /** The input's place under the walked folder is its directory and name. */
  lemma InputRelative(folder: Path, e: Entry<Option<Image>>)
    ensures RelativeTo(FileOf(folder, e), folder) == Some(Path(false, e.relDir + [e.name]))
  {
    var input := FileOf(folder, e);
    assert input.parts == folder.parts + (e.relDir + [e.name]);
    assert input.parts[..|folder.parts|] == folder.parts;
  }

  /** Two files land on the same output exactly when they sit in the same
      directory and share a stem. */
  lemma MirroredPathsCollideIff(folder: Path, e1: Entry<Option<Image>>, e2: Entry<Option<Image>>, fmt: Format)
    ensures MirroredPath(folder, e1, fmt) == MirroredPath(folder, e2, fmt)
            <==> e1.relDir == e2.relDir && Stem(e1.name) == Stem(e2.name)
  {
    var root := OutputRoot(folder);
    var r1 := Path(false, e1.relDir + [MirroredName(e1.name, fmt)]);
    var r2 := Path(false, e2.relDir + [MirroredName(e2.name, fmt)]);
    if MirroredPath(folder, e1, fmt) == MirroredPath(folder, e2, fmt) {
      assert r1 == r2;
      assert e1.relDir == r1.parts[..|r1.parts| - 1];
      assert e2.relDir == r2.parts[..|r2.parts| - 1];
      assert Stem(MirroredName(e1.name, fmt)) == Stem(MirroredName(e2.name, fmt));
    }
  }

  /** What `convert_folder` did with one file of the walk. */
  datatype FolderJob =
    | Skipped(input: Path)                                     // "Skipping non-image file"
    | Converted(input: Path, output: Path, outcome: ImageOutcome)

  /** One file of `convert_folder`: skipped with a notice exactly when it
      does not open; otherwise converted into the mirrored tree, where an
      error inside `process_image` is reported there and is not a skip. */
  function FolderJobFor(folder: Path, e: Entry<Option<Image>>, fmt: Format, quality: int,
                        resize: Option<(int, int)>): (j: FolderJob)
    ensures j.input == FileOf(folder, e)
    ensures j.Skipped? <==> e.media.None?
    ensures j.Converted? ==> j.output == MirroredPath(folder, e, fmt) && j.outcome != Failed(CannotOpen)
    ensures j.Converted? ==> j.outcome == ProcessImage(e.media, Render(j.output), quality, resize)
  {
    if e.media.None? then Skipped(FileOf(folder, e))
    else
      var output := MirroredPath(folder, e, fmt);
      Converted(FileOf(folder, e), output, ProcessImage(e.media, Render(output), quality, resize))
  }

  /** `convert_folder`: every file of the walk, in walk order. */
  function ConvertFolder(folder: Path, walk: seq<Entry<Option<Image>>>, fmt: Format, quality: int,
                         resize: Option<(int, int)>): (jobs: seq<FolderJob>)
    ensures |jobs| == |walk|
    ensures forall i :: 0 <= i < |walk| ==> jobs[i] == FolderJobFor(folder, walk[i], fmt, quality, resize)
  {
    if |walk| == 0 then []
    else [FolderJobFor(folder, walk[0], fmt, quality, resize)] + ConvertFolder(folder, walk[1..], fmt, quality, resize)
  }

  /** The script's run: the checks and options, then the converter call. */
  datatype Job =
    | FolderRun(folder: Path, format: Format, quality: int, resize: Option<(int, int)>)
    | FileRun(input: Path, output: string, format: Format, quality: int, resize: Option<(int, int)>)

  /** The Desktop folder's name under the home directory. */
  function DesktopDir(): (d: Part)
    ensures d == "Desktop"
  {
    var d := "Desktop";
    assert d[0] == 'D' && d[1] == 'e';
    d
  }

  /** `expo_<stem>.<format>`, the name of a Desktop output. */
  function DesktopName(input: Path, fmt: Format): (name: Part)
    ensures name == "expo_" + Stem(Name(input)) + "." + FormatName(fmt)
  {
    if Name(input) == "" then
      assert Stem("") == "";
      var expo := "expo_";
      assert expo[0] == 'e' && expo[1] == 'x' && expo[2] == 'p' && expo[3] == 'o' && expo[4] == '_';
      expo + DotFormat(fmt)
    else ExpoName(Name(input)) + DotFormat(fmt)
  }

  /** `<home>/Desktop/expo_<stem>.<format>`. */
  function DesktopPath(input: Path, fmt: Format, home: Path): (p: Path)
    ensures Parent(Parent(p)) == home && Name(Parent(p)) == "Desktop"
    ensures Name(p) == "expo_" + Stem(Name(input)) + "." + FormatName(fmt)
  {
    Join(Join(home, DesktopDir()), DesktopName(input, fmt))
  }

  /** An output answer that selects the Desktop, once lower-cased. */
  predicate IsDesktop(answer: string) {
    answer == "desktop" || answer == "d"
  }

  /** `str(Path(input_path).with_suffix(f".{output_format}"))`: the input
      renamed in place, or `None` where pathlib raises for want of a name. */
  function BlankOutput(input: Path, fmt: Format): (r: Option<string>)
    ensures r.Some? <==> Name(input) != ""
    ensures r.Some? ==>
              && Parent(ParsePath(r.value)) == Parent(input)
              && Name(ParsePath(r.value)) == Stem(Name(input)) + "." + FormatName(fmt)
  {
    var suffix := DotFormat(fmt);
    match WithSuffix(input, suffix)
    case None => None
    case Some(p) =>
      ParseRender(p);
      Some(Render(p))
  }

  /** The single-file output prompt: "desktop" or "d" in any case selects
      the Desktop; a blank answer renames the input in place; anything else
      is used as typed. */
  function OutputChoice(input: Path, fmt: Format, answer: string, home: Path): (r: Option<string>)
    ensures var typed := StripChar(Strip(answer), '"');
            && (IsDesktop(Lower(typed)) ==>
                  && r.Some?
                  && Parent(Parent(ParsePath(r.value))) == home
                  && Name(Parent(ParsePath(r.value))) == "Desktop"
                  && Name(ParsePath(r.value)) == "expo_" + Stem(Name(input)) + "." + FormatName(fmt))
            && (typed == "" ==>
                  && (r.Some? <==> Name(input) != "")
                  && (r.Some? ==> Parent(ParsePath(r.value)) == Parent(input))
                  && (r.Some? ==> Name(ParsePath(r.value)) == Stem(Name(input)) + "." + FormatName(fmt)))
            && (typed != "" && !IsDesktop(Lower(typed)) ==> r == Some(typed))
  {
    var typed := StripChar(Strip(answer), '"');
    assert |Lower(typed)| == |typed|;
    if IsDesktop(Lower(typed)) then
      var p := DesktopPath(input, fmt, home);
      ParseRender(p);
      Some(Render(p))
    else if typed == "" then BlankOutput(input, fmt)
    else Some(typed)
  }

  /** A blank answer for an input that already has the target extension
      names the input itself: the conversion writes over its source. */
  lemma BlankAnswerKeepsMatchingInput(input: Path, fmt: Format, home: Path)
    requires Suffix(Name(input)) == "." + FormatName(fmt)
    ensures OutputChoice(input, fmt, "", home) == Some(Render(input))
  {
    BlankStrip();
    BlankLower();
    assert OutputChoice(input, fmt, "", home) == BlankOutput(input, fmt);
    BlankOutputOfMatchingInput(input, fmt);
  }

  /** A blank answer is still blank after the quotes are stripped. */
  lemma BlankStrip()
    ensures StripChar(Strip(""), '"') == ""
  {
    assert Strip("") == "";
  }

  /** A blank answer does not select the Desktop. */
  lemma BlankLower()
    ensures !IsDesktop(Lower(""))
  {
    assert |Lower("")| == 0;
  }

  lemma BlankOutputOfMatchingInput(input: Path, fmt: Format)
    requires Suffix(Name(input)) == "." + FormatName(fmt)
    ensures BlankOutput(input, fmt) == Some(Render(input))
  {
    WithOwnSuffix(input);
  }

  /** The default the quality prompt falls back to reads as 85. */
  lemma DefaultQualityText()
    ensures ValidateQuality("85") == Some(85)
  {
    var s := "85";
    assert IsDigits(s);
    assert s[..1] == "8" && "8"[..0] == "";
    assert DigitsValue(s) == 85;
  }

  /** The options the script collects: format, quality, resize. */
  datatype Options = Options(format: Format, quality: int, resize: Option<(int, int)>)

  /** The quality prompt: a blank answer means 85, and anything that is not
      a number in [1, 100] ends the run. */
  function AskQuality(answers: seq<string>): (r: Prompted<int>)
    ensures |answers| == 0 ==> r == Halted(InputExhausted)
    ensures |answers| > 0 && Strip(answers[0]) == "" ==> r == Got(85, answers[1..])
    ensures |answers| > 0 && Strip(answers[0]) != "" ==>
              && (r.Got? <==> ParseInt(answers[0]).Some? && 1 <= ParseInt(answers[0]).value <= 100)
              && (r.Got? ==> Some(r.value) == ParseInt(answers[0]) && r.rest == answers[1..])
              && (r.Halted? ==> r.halt == InvalidQuality)
  {
    if |answers| == 0 then Halted(InputExhausted)
    else
      var typed := Strip(answers[0]);
      DefaultQualityText();
      ParseIntStrip(answers[0]);
      match ValidateQuality(if typed == "" then "85" else typed)
      case None => Halted(InvalidQuality)
      case Some(quality) => Got(quality, answers[1..])
  }

  /** The resize question: yes/y goes on to the two size prompts; any other
      answer means no resize and never ends the run. */
  function AskResize(answers: seq<string>): (r: Prompted<Option<(int, int)>>)
    ensures |answers| == 0 ==> r == Halted(InputExhausted)
    ensures |answers| > 0 && IsYes(Lower(Strip(answers[0]))) ==> r == ReadResize(answers[1..])
    ensures |answers| > 0 && !IsYes(Lower(Strip(answers[0]))) ==> r == Got(None, answers[1..])
    ensures r.Got? ==> |r.rest| < |answers|
  {
    if |answers| == 0 then Halted(InputExhausted)
    else if IsYes(Lower(Strip(answers[0]))) then ReadResize(answers[1..])
    else Got(None, answers[1..])
  }

  /** The script's format check: only jpg, jpeg and png are accepted. */
  function ScriptFormat(typed: string): (r: Option<Format>)
    ensures r.Some? <==> typed in SupportedFormats
    ensures r.Some? ==> FormatName(r.value) == typed && r.value in {Jpg, Jpeg, Png}
    ensures r.Some? ==> ParseFormat(typed) == r
  {
    if typed == "jpg" then Some(Jpg)
    else if typed == "jpeg" then Some(Jpeg)
    else if typed == "png" then Some(Png)
    else None
  }

  /** The quality prompt followed by the resize question: the quality is
      85 for a blank answer and otherwise what `int()` reads; yes/y goes on
      to the two size prompts, and any other answer means no resize. */
  function AskQualityResize(answers: seq<string>): (r: Prompted<(int, Option<(int, int)>)>)
    ensures r.Got? ==>
              && |answers| >= 2
              && 1 <= r.value.0 <= 100
              && (Strip(answers[0]) == "" ==> r.value.0 == 85)
              && (Strip(answers[0]) != "" ==> Some(r.value.0) == ParseInt(answers[0]))
              && |r.rest| <= |answers| - 2
    ensures r.Got? && IsYes(Lower(Strip(answers[1]))) ==>
              && ReadResize(answers[2..]).Got?
              && r.value.1 == ReadResize(answers[2..]).value
              && r.rest == ReadResize(answers[2..]).rest
    ensures r.Got? && !IsYes(Lower(Strip(answers[1]))) ==> r.value.1.None? && r.rest == answers[2..]
    ensures (|answers| >= 2 && AskQuality(answers).Got?
             && (IsYes(Lower(Strip(answers[1]))) ==> ReadResize(answers[2..]).Got?)) ==> r.Got?
    ensures r.Halted? ==> r.halt in {InputExhausted, InvalidQuality}
  {
    match AskQuality(answers)
    case Halted(h) => Halted(h)
    case Got(quality, rest) =>
      assert rest == answers[1..];
      match AskResize(rest)
      case Halted(h) => Halted(h)
      case Got(resize, rest') =>
        assert rest[1..] == answers[2..];
        Got((quality, resize), rest')
  }

  /** The format check followed by the quality and resize prompts. Only
      jpg/jpeg/png pass the format check. */
  function AskOptions(answers: seq<string>): (r: Prompted<Options>)
    ensures |answers| == 0 ==> r == Halted(InputExhausted)
    ensures |answers| > 0 && Lower(Strip(answers[0])) !in SupportedFormats ==> r == Halted(UnsupportedFormat)
    ensures r.Got? ==>
              && |answers| >= 3
              && FormatName(r.value.format) == Lower(Strip(answers[0]))
              && r.value.format in {Jpg, Jpeg, Png}
              && 1 <= r.value.quality <= 100
              && |r.rest| <= |answers| - 3
    ensures r.Got? ==>
              && AskQualityResize(answers[1..]).Got?
              && r.value.quality == AskQualityResize(answers[1..]).value.0
              && r.value.resize == AskQualityResize(answers[1..]).value.1
              && r.rest == AskQualityResize(answers[1..]).rest
    ensures (|answers| > 0 && Lower(Strip(answers[0])) in SupportedFormats
             && AskQualityResize(answers[1..]).Got?) ==> r.Got?
  {
    if |answers| == 0 then Halted(InputExhausted)
    else
      match ScriptFormat(Lower(Strip(answers[0])))
      case None => Halted(UnsupportedFormat)
      case Some(fmt) =>
        match AskQualityResize(answers[1..])
        case Halted(h) => Halted(h)
        case Got(chosen, rest) => Got(Options(fmt, chosen.0, chosen.1), rest)
  }

  /** The script's `main`: the path is checked first, then the options; a
      directory goes to `convert_folder`, a file reads one more answer for
      its output path. */
  function Main(answers: seq<string>, fs: PathFacts, home: Path): (r: Prompted<Job>)
    ensures r.Got? <==>
              && |answers| > 0 && fs.present && AskOptions(answers[1..]).Got?
              && (fs.isDir
                  || (&& |AskOptions(answers[1..]).rest| > 0
                      && OutputChoice(ParsePath(StripChar(Strip(answers[0]), '"')),
                                      AskOptions(answers[1..]).value.format,
                                      AskOptions(answers[1..]).rest[0], home).Some?))
    ensures |answers| == 0 ==> r == Halted(InputExhausted)
    ensures |answers| > 0 && !fs.present ==> r == Halted(PathMissing)
    ensures |answers| > 1 && fs.present && Lower(Strip(answers[1])) !in SupportedFormats ==>
              r == Halted(UnsupportedFormat)
    ensures r.Got? ==> (r.value.FolderRun? <==> fs.isDir)
    ensures r.Got? ==> r.value.format in {Jpg, Jpeg, Png} && 1 <= r.value.quality <= 100
    ensures r.Got? ==>
              && AskOptions(answers[1..]).Got?
              && r.value.format == AskOptions(answers[1..]).value.format
              && r.value.quality == AskOptions(answers[1..]).value.quality
              && r.value.resize == AskOptions(answers[1..]).value.resize
    ensures r.Got? && r.value.FolderRun? ==>
              && r.value.folder == ParsePath(StripChar(Strip(answers[0]), '"'))
              && r.rest == AskOptions(answers[1..]).rest
    ensures r.Got? && r.value.FileRun? ==>
              && r.value.input == ParsePath(StripChar(Strip(answers[0]), '"'))
              && |AskOptions(answers[1..]).rest| > 0
              && Some(r.value.output)
                 == OutputChoice(r.value.input, r.value.format, AskOptions(answers[1..]).rest[0], home)
              && r.rest == AskOptions(answers[1..]).rest[1..]
  {
    if |answers| == 0 then Halted(InputExhausted)
    else if !fs.present then Halted(PathMissing)
    else
      var input := ParsePath(StripChar(Strip(answers[0]), '"'));
      match AskOptions(answers[1..])
      case Halted(h) => Halted(h)
      case Got(opts, rest) =>
        if fs.isDir then Got(FolderRun(input, opts.format, opts.quality, opts.resize), rest)
        else if |rest| == 0 then Halted(InputExhausted)
        else
          match OutputChoice(input, opts.format, rest[0], home)
          case None => Halted(NoFileName)
          case Some(output) => Got(FileRun(input, output, opts.format, opts.quality, opts.resize), rest[1..])
  }
}

=== FILE: formats.dfy ===
/**
  The eight output formats the converter offers, as the lower-case names the
  user types and the program puts after the dot of an output file.
*/
module Formats {
  import opened Common
  import opened Paths

  datatype Format = Jpg | Jpeg | Png | Bmp | Ico | Gif | Webp | Aac

  /** The name typed at the format prompt; it is also the file extension. */
  function FormatName(f: Format): (s: string)
    ensures |s| > 0 && NoDot(s) && NoSlash(s)
  {
    match f
    case Jpg => "jpg"
    case Jpeg => "jpeg"
    case Png => "png"
    case Bmp => "bmp"
    case Ico => "ico"
    case Gif => "gif"
    case Webp => "webp"
    case Aac => "aac"
  }

  /** The format a (stripped, lower-cased) answer names, if any. */
  function ParseFormat(s: string): (r: Option<Format>)
    ensures r.Some? ==> FormatName(r.value) == s
  {
    if s == "jpg" then Some(Jpg)
    else if s == "jpeg" then Some(Jpeg)
    else if s == "png" then Some(Png)
    else if s == "bmp" then Some(Bmp)
    else if s == "ico" then Some(Ico)
    else if s == "gif" then Some(Gif)
    else if s == "webp" then Some(Webp)
    else if s == "aac" then Some(Aac)
    else None
  }

  /** Every format is recognised by its own name, so names and formats are
      in one-to-one correspondence. */
  lemma ParseFormatName(f: Format)
    ensures ParseFormat(FormatName(f)) == Some(f)
  {
  }

  /** `"expo_" + stem`, the name every single-file output starts from: a
      component whenever the name it comes from is. */
  function ExpoName(name: Part): (named: Part)
    ensures named == "expo_" + Stem(name)
  {
    StemSuffixSplit(name);
    var named := "expo_" + Stem(name);
    assert named[0] == 'e';
    assert forall k :: 5 <= k < |named| ==> named[k] == Stem(name)[k - 5];
    named
  }

  /** `"." + format`: a suffix `with_suffix` accepts, and with the stem in
      front still a component. */
  function DotFormat(fmt: Format): (suffix: string)
    ensures suffix == "." + FormatName(fmt)
    ensures suffix[0] == '.' && suffix != "." && NoSlash(suffix)
    ensures forall stem: string :: NoSlash(stem) ==> NoSlash(stem + suffix)
  {
    var suffix := "." + FormatName(fmt);
    assert forall k :: 1 <= k < |suffix| ==> suffix[k] == FormatName(fmt)[k - 1];
    suffix
  }
}

=== FILE: image_processing.dfy ===
/**
  The decision logic of `source/image_processing.py`: which colour-mode
  change and which save options each output extension gets, what happens to
  an animated GIF, and how the folder converter names its outputs and when
  it combines a folder into one animated GIF.

  Pillow itself is opaque. An image is what `Image.open` reports about it
  (GIF or not, frame count, mode of the current frame), and a conversion is
  the list of operations the program asks Pillow to perform, in order. The
  failures the program's own code decides (indexing a band that does not
  exist, `None` where Pillow needs a number, no prompt answer left) are
  computed; whatever else Pillow may reject is not modelled.
*/
module ImageProcessing {
  import opened Common
  import opened Integers
  import opened Paths
  import opened Formats
  import opened Utils
  import opened Batch

  /** Pillow image modes ("1" is written `Bilevel`). */
  datatype Mode = Bilevel | L | P | LA | PA | RGB | RGBA | CMYK | YCbCr | LAB | HSV | I | F

  /** Number of bands `img.split()` returns for a mode. */
  function Bands(m: Mode): nat {
    match m
    case Bilevel | L | P | I | F => 1
    case LA | PA => 2
    case RGB | YCbCr | LAB | HSV => 3
    case RGBA | CMYK => 4
  }

  /** What `Image.open` reports: GIF or not, `n_frames`, and the mode. */
  datatype Image = Image(isGif: bool, frames: nat, mode: Mode)

  /** `img.format == "GIF" and img.is_animated`. */
  predicate IsAnimatedGif(img: Image) {
    img.isGif && img.frames > 1
  }

  /** Why a conversion ended in the "Error processing" handler. */
  datatype Fault =
    | CannotOpen      // Image.open raised
    | NoMaskBand      // img.split()[3] on a mode with fewer than four bands
    | NoneInSize      // a side of the resize pair is None
    | NoneQuality     // quality // 10 with quality None
    | NoMoreInput     // input() found no answer left

  /** How `if resize: img = img.resize(resize)` treats the resize argument.
      Any pair is truthy, so a pair with a `None` side reaches Pillow and
      fails there. */
  datatype Sizing = Keep | ResizeTo(width: int, height: int) | Unusable

  function SizingOf(resize: Option<Dim>): (s: Sizing)
    ensures s.Keep? <==> resize.None?
    ensures s.ResizeTo? <==> resize.Some? && resize.value.width.Some? && resize.value.height.Some?
    ensures s.ResizeTo? ==> resize == Some(Dim(Some(s.width), Some(s.height)))
  {
    match resize
    case None => Keep
    case Some(Dim(Some(w), Some(h))) => ResizeTo(w, h)
    case Some(_) => Unusable
  }

  /** The save branch an output file name selects. */
  datatype Target = JpegFile | PngFile | BmpFile | IcoFile | GifFile | WebpFile

  /** The `output_file.endswith(...)` chain of `save_image`. */
  function TargetOf(outputFile: string): (t: Option<Target>)
    ensures t == Some(JpegFile) ==> EndsWith(outputFile, ".jpg") || EndsWith(outputFile, ".jpeg")
    ensures t == Some(PngFile) ==> EndsWith(outputFile, ".png")
    ensures t == Some(BmpFile) ==> EndsWith(outputFile, ".bmp")
    ensures t == Some(IcoFile) ==> EndsWith(outputFile, ".ico")
    ensures t == Some(GifFile) ==> EndsWith(outputFile, ".gif")
    ensures t == Some(WebpFile) ==> EndsWith(outputFile, ".webp")
    ensures t.None? <==>
              !EndsWith(outputFile, ".jpg") && !EndsWith(outputFile, ".jpeg")
              && !EndsWith(outputFile, ".png") && !EndsWith(outputFile, ".bmp")
              && !EndsWith(outputFile, ".ico") && !EndsWith(outputFile, ".gif")
              && !EndsWith(outputFile, ".webp")
  {
    if EndsWith(outputFile, ".jpg") || EndsWith(outputFile, ".jpeg") then Some(JpegFile)
    else if EndsWith(outputFile, ".png") then Some(PngFile)
    else if EndsWith(outputFile, ".bmp") then Some(BmpFile)
    else if EndsWith(outputFile, ".ico") then Some(IcoFile)
    else if EndsWith(outputFile, ".gif") then Some(GifFile)
    else if EndsWith(outputFile, ".webp") then Some(WebpFile)
    else None
  }

  /** The options `img.save` receives. `quality` is the value passed as the
      `quality` keyword (JPEG and WEBP only); `compressLevel` is passed for
      PNG only. */
  datatype SaveCall = SaveCall(
    path: string, mode: Mode, quality: Option<int>,
    optimize: bool, progressive: bool, compressLevel: Option<int>)

  /** One call the program makes on the image, in program order. */
  datatype ImageOp =
    | Resize(width: int, height: int)
    | Convert(mode: Mode)
    | FlattenOnWhite(maskBand: nat)   // paste onto a new white RGB canvas, masked by that band
    | Save(call: SaveCall)

  /** The mode of the image after one operation. */
  function ModeAfterOp(m: Mode, op: ImageOp): Mode {
    match op
    case Convert(target) => target
    case FlattenOnWhite(_) => RGB
    case _ => m
  }

  /** The mode of the image after a run of operations. */
  function ModeAfter(m: Mode, ops: seq<ImageOp>): Mode
    decreases |ops|
  {
    if |ops| == 0 then m else ModeAfter(ModeAfterOp(m, ops[0]), ops[1..])
  }

  /** The modes a target writes without changing them. */
  predicate Accepts(t: Target, m: Mode) {
    match t
    case JpegFile => m == RGB
    case PngFile => m in {RGBA, RGB, LA, L}
    case BmpFile => m in {RGB, L}
    case IcoFile => m in {RGBA, RGB}
    case GifFile => true
    case WebpFile => m in {RGBA, RGB}
  }

  /** The mode change `save_image` applies before writing `t`, or `None`
      when the code raises: a JPEG of an LA image asks for band 3 of a
      two-band image. It is at most one operation, and whatever comes out
      is a mode the target accepts. PNG, BMP and ICO leave a mode they
      accept untouched and otherwise convert, to RGB for BMP and to RGBA for
      PNG and ICO. JPEG flattens an RGBA image on white through its alpha
      band and converts every other mode to RGB. WEBP always converts, to
      RGBA exactly for sources with alpha. GIF changes nothing. */
  function ModeOps(t: Target, m: Mode): (r: Option<seq<ImageOp>>)
    ensures r.None? <==> t == JpegFile && m == LA
    ensures r.Some? ==> |r.value| <= 1
    ensures r.Some? ==> Accepts(t, ModeAfter(m, r.value))
    ensures r.Some? && Accepts(t, m) ==> ModeAfter(m, r.value) == m
    ensures r.Some? && t in {PngFile, BmpFile, IcoFile} ==> (r.value == [] <==> Accepts(t, m))
    ensures r.Some? && t in {PngFile, BmpFile, IcoFile} && !Accepts(t, m) ==>
              r.value == [Convert(if t == BmpFile then RGB else RGBA)]
    ensures t == JpegFile && m == RGBA ==> r == Some([FlattenOnWhite(3)])
    ensures t == JpegFile && m != RGBA && m != LA ==> r == Some([Convert(RGB)])
    ensures t == WebpFile ==> r.Some? && |r.value| == 1 && r.value[0].Convert?
    ensures r.Some? && t == WebpFile ==> (ModeAfter(m, r.value) == RGBA <==> m in {RGBA, LA})
    ensures t == GifFile ==> r == Some([])
    ensures r.Some? ==> forall k :: 0 <= k < |r.value| ==> !r.value[k].Save? && !r.value[k].Resize?
  {
    match t
    case JpegFile =>
      if m == RGBA || m == LA then
        (if 3 < Bands(m) then Some([FlattenOnWhite(3)]) else None)
      else Some([Convert(RGB)])
    case PngFile => if m in {RGBA, RGB, LA, L} then Some([]) else Some([Convert(RGBA)])
    case BmpFile => if m in {RGB, L} then Some([]) else Some([Convert(RGB)])
    case IcoFile => if m in {RGBA, RGB} then Some([]) else Some([Convert(RGBA)])
    case GifFile => Some([])
    case WebpFile => if m in {RGBA, LA} then Some([Convert(RGBA)]) else Some([Convert(RGB)])
  }

  /** PNG `compress_level = 10 - quality // 10` (Python's floor division and
      Dafny's division agree for the positive divisor 10). For every quality
      the prompt accepts it lies in [0, 10]; the value 10, one above zlib's
      highest level 9, is reached exactly by the single-digit qualities. */
  function CompressLevel(quality: int): (c: int)
    ensures 1 <= quality <= 100 ==> 0 <= c <= 10
    ensures 1 <= quality <= 100 ==> (c == 10 <==> quality <= 9)
  {
    10 - quality / 10
  }

  /** Higher quality never means more compression effort. */
  lemma CompressLevelNonIncreasing(q1: int, q2: int)
    requires q1 <= q2
    ensures CompressLevel(q2) <= CompressLevel(q1)
  {
  }

  /** The outcome of `save_image`: the operations it performs (none when no
      extension matched, so nothing is written), or the error it raises. */
  datatype SaveResult = Steps(ops: seq<ImageOp>) | SaveFault(fault: Fault)

  /** `save_image(img, output_file, quality)` on an image of mode `m`. */
  function SaveImage(m: Mode, outputFile: string, quality: Option<int>): (r: SaveResult)
    ensures TargetOf(outputFile).None? ==> r == Steps([])
    ensures r.Steps? ==> forall k :: 0 <= k < |r.ops| ==> !r.ops[k].Resize?
    ensures r.SaveFault? <==>
              || (TargetOf(outputFile) == Some(JpegFile) && m == LA)
              || (TargetOf(outputFile) == Some(PngFile) && quality.None?)
    ensures r.Steps? && TargetOf(outputFile).Some? ==>
              && |r.ops| > 0
              && ModeOps(TargetOf(outputFile).value, m).Some?
              && r.ops[..|r.ops| - 1] == ModeOps(TargetOf(outputFile).value, m).value
              && r.ops[|r.ops| - 1].Save?
              && r.ops[|r.ops| - 1].call.path == outputFile
              && r.ops[|r.ops| - 1].call.mode == ModeAfter(m, r.ops[..|r.ops| - 1])
              && Accepts(TargetOf(outputFile).value, r.ops[|r.ops| - 1].call.mode)
  {
    match TargetOf(outputFile)
    case None => Steps([])
    case Some(t) =>
      match ModeOps(t, m)
      case None => SaveFault(NoMaskBand)
      case Some(prep) =>
        if t == PngFile && quality.None? then SaveFault(NoneQuality)
        else
          var call := SaveCall(
            outputFile, ModeAfter(m, prep),
            if t == JpegFile || t == WebpFile then quality else None,
            t != BmpFile && t != IcoFile,
            t == JpegFile,
            if t == PngFile then Some(CompressLevel(quality.value)) else None);
          assert (prep + [Save(call)])[..|prep|] == prep;
          Steps(prep + [Save(call)])
  }

  /** The save options each target gets: JPEG quality, optimize and
      progressive; PNG optimize and `compress_level`; WEBP quality and
      optimize; GIF optimize; BMP and ICO nothing. */
  lemma SaveOptionsByTarget(m: Mode, outputFile: string, quality: Option<int>)
    requires SaveImage(m, outputFile, quality).Steps? && TargetOf(outputFile).Some?
    ensures var ops := SaveImage(m, outputFile, quality).ops;
            var call := ops[|ops| - 1].call;
            var t := TargetOf(outputFile).value;
            && call.quality == (if t == JpegFile || t == WebpFile then quality else None)
            && call.optimize == (t != BmpFile && t != IcoFile)
            && call.progressive == (t == JpegFile)
            && call.compressLevel == (if t == PngFile then Some(10 - quality.value / 10) else None)
  {
    var t := TargetOf(outputFile).value;
    var prep := ModeOps(t, m).value;
    var call := SaveCall(
      outputFile, ModeAfter(m, prep),
      if t == JpegFile || t == WebpFile then quality else None,
      t != BmpFile && t != IcoFile,
      t == JpegFile,
      if t == PngFile then Some(CompressLevel(quality.value)) else None);
    assert SaveImage(m, outputFile, quality) == Steps(prep + [Save(call)]);
  }

  /** What `process_image` did with one input. */
  datatype ImageOutcome =
    | Saved(ops: seq<ImageOp>)                                 // "File saved" printed
    | FrameSaved(requested: nat, used: nat, sizing: Sizing, path: string)
    | FramesSaved(sizing: Sizing, paths: seq<Path>)
    | Failed(fault: Fault)                                      // "Error processing" printed

  /** The file name `handle_animated_gif` gives frame `i`:
      `<stem>_frame<i>.<ext>`. */
  function FrameName(base: string, i: nat, ext: string): string {
    base + "_frame" + ShowNat(i) + "." + ext
  }

  /** `Path(output_file).suffix.strip('.')`: the extension without its dot.
      A non-empty suffix holds exactly one dot, its first character, so
      stripping dots removes just that one (see `ExtensionStripsDot`). */
  function Extension(name: string): (e: string)
    ensures NoDot(e)
    ensures NoSlash(name) ==> NoSlash(e)
  {
    StemSuffixSplit(name);
    var s := Suffix(name);
    if s == "" then "" else s[1..]
  }

  /** `Extension` is what `str.strip('.')` leaves of the suffix. */
  lemma ExtensionStripsDot(name: string)
    ensures Extension(name) == StripChar(Suffix(name), '.')
  {
    StemSuffixSplit(name);
    var s := Suffix(name);
    var drop := (x: char) => x == '.';
    if s != "" {
      var t := TrimStart(s, drop);
      assert |s| - |t| >= 1;
      assert s[1..][0] == s[1];
      assert |s| - |t| <= 1;
      assert t == s[1..];
      var u := TrimEnd(t, drop);
      assert t[|t| - 1] == s[1..][|t| - 1];
      assert |u| == |t|;
      assert u == t;
      assert StripChar(s, '.') == Trim(s, drop);
    } else {
      assert StripChar(s, '.') == Trim(s, drop);
    }
  }

  /** The component `<stem>_frame<i>.<ext>`. */
  function FramePart(base: string, i: nat, ext: string): (p: Part)
    requires NoSlash(base) && NoSlash(ext)
    ensures p == FrameName(base, i, ext)
  {
    var name := base + ("_frame" + ShowNat(i) + "." + ext);
    assert name == FrameName(base, i, ext);
    assert name[|base|..|base| + 6] == "_frame";
    name
  }

  /** The files "all" writes: `<stem>_frame<i>.<ext>` for every frame index,
      beside the requested output file. */
  function FramePaths(out: Path, frames: nat): (ps: seq<Path>)
    ensures |ps| == frames
    ensures forall i :: 0 <= i < frames ==>
              Parent(ps[i]) == Parent(out)
              && Name(ps[i]) == FrameName(Stem(Name(out)), i, Extension(Name(out)))
  {
    StemSuffixSplit(Name(out));
    var base := Stem(Name(out));
    var ext := Extension(Name(out));
    seq(frames, i requires 0 <= i < frames => Join(Parent(out), FramePart(base, i, ext)))
  }

  /** Different frame indices give different file names. */
  lemma FrameNamesDistinct(base: string, ext: string, i: nat, j: nat)
    requires i != j
    ensures FrameName(base, i, ext) != FrameName(base, j, ext)
  {
    var prefix := base + "_frame";
    var a, b := ShowNat(i), ShowNat(j);
    var x, y := FrameName(base, i, ext), FrameName(base, j, ext);
    assert x == prefix + a + ("." + ext);
    assert y == prefix + b + ("." + ext);
    if x == y {
      assert |a| == |b|;
      assert a == x[|prefix|..|prefix| + |a|];
      assert b == y[|prefix|..|prefix| + |b|];
      ShowNatInjective(i, j);
    }
  }

  /** Extracting "all" frames writes one file per frame, all in the output
      file's directory, no two with the same name. */
  lemma FramePathsDistinct(out: Path, frames: nat)
    ensures forall i, j :: 0 <= i < j < frames ==> FramePaths(out, frames)[i] != FramePaths(out, frames)[j]
  {
    var ps := FramePaths(out, frames);
    forall i, j | 0 <= i < j < frames
      ensures ps[i] != ps[j]
    {
      FrameNamesDistinct(Stem(Name(out)), Extension(Name(out)), i, j);
    }
  }

  /** The frame number an answer other than "all" asks for: the number a
      digit string spells (as `int()` reads it), anything else frame 0. */
  function RequestedFrame(answer: string): (n: nat)
    ensures IsDigits(Strip(answer)) ==> Some(n as int) == ParseInt(answer)
    ensures !IsDigits(Strip(answer)) ==> n == 0
  {
    var typed := Strip(answer);
    TrimIdempotent(answer, IsSpace);
    if IsDigits(typed) then DigitsValue(typed) else 0
  }

  /** `handle_animated_gif`: reads one answer. "all" (any case) saves every
      frame; a digit string requests that frame, anything else frame 0; a
      frame past the end falls back to frame 0 while the report keeps the
      requested number. The frame is saved as is: no mode table, no quality. */
  function HandleAnimatedGif(img: Image, outputFile: string, resize: Option<Dim>, answers: seq<string>)
    : (r: Answered<ImageOutcome>)
    ensures |answers| == 0 ==> r == Answered(Failed(NoMoreInput), answers)
    ensures |answers| > 0 ==> r.rest == answers[1..]
    ensures r.value.FramesSaved? ==>
              |answers| > 0 && Lower(Strip(answers[0])) == "all"
              && r.value.paths == FramePaths(ParsePath(outputFile), img.frames)
    ensures r.value.FrameSaved? ==>
              && |answers| > 0
              && r.value.path == outputFile
              && r.value.requested == RequestedFrame(answers[0])
              && r.value.used == (if r.value.requested < img.frames then r.value.requested else 0)
    ensures r.value.Saved? == false
    ensures |answers| > 0 && !SizingOf(resize).Unusable? ==>
              && (Lower(Strip(answers[0])) == "all" <==> r.value.FramesSaved?)
              && (Lower(Strip(answers[0])) != "all" <==> r.value.FrameSaved?)
    ensures |answers| > 0 && SizingOf(resize).Unusable? ==>
              (r.value.Failed? <==> img.frames > 0 || Lower(Strip(answers[0])) != "all")
    ensures r.value.Failed? ==>
              |answers| == 0 || (SizingOf(resize).Unusable? && r.value.fault == NoneInSize)
    ensures r.value.FramesSaved? || r.value.FrameSaved? ==> r.value.sizing == SizingOf(resize)
  {
    if |answers| == 0 then Answered(Failed(NoMoreInput), answers)
    else
      var sizing := SizingOf(resize);
      if Lower(Strip(answers[0])) == "all" then
        if sizing.Unusable? && img.frames > 0 then Answered(Failed(NoneInSize), answers[1..])
        else Answered(FramesSaved(sizing, FramePaths(ParsePath(outputFile), img.frames)), answers[1..])
      else if sizing.Unusable? then Answered(Failed(NoneInSize), answers[1..])
      else
        var requested := RequestedFrame(answers[0]);
        var used := if requested < img.frames then requested else 0;
        Answered(FrameSaved(requested, used, sizing, outputFile), answers[1..])
  }

  /** The resize operation a still image gets first, if any. */
  function ResizeOps(sizing: Sizing): seq<ImageOp> {
    if sizing.ResizeTo? then [Resize(sizing.width, sizing.height)] else []
  }

  /** `process_image(input_file, output_file, quality, resize)`, given what
      `Image.open` yields (`None` when it raises) and the prompt answers an
      animated GIF may read. */
  function ProcessImage(image: Option<Image>, outputFile: string, quality: Option<int>,
                        resize: Option<Dim>, answers: seq<string>): (r: Answered<ImageOutcome>)
    ensures image.None? ==> r == Answered(Failed(CannotOpen), answers)
    ensures |r.rest| <= |answers|
    ensures image.Some? && !IsAnimatedGif(image.value) ==> r.rest == answers
    ensures image.Some? && IsAnimatedGif(image.value) ==>
              r == HandleAnimatedGif(image.value, outputFile, resize, answers)
    ensures image.Some? && !IsAnimatedGif(image.value) ==>
              && (r.value.Saved? || r.value.Failed?)
              && (r.value.Saved? <==>
                    !SizingOf(resize).Unusable? && SaveImage(image.value.mode, outputFile, quality).Steps?)
              && (r.value.Failed? ==>
                    r.value.fault == if SizingOf(resize).Unusable? then NoneInSize
                                     else SaveImage(image.value.mode, outputFile, quality).fault)
  {
    match image
    case None => Answered(Failed(CannotOpen), answers)
    case Some(img) =>
      if IsAnimatedGif(img) then HandleAnimatedGif(img, outputFile, resize, answers)
      else
        var sizing := SizingOf(resize);
        if sizing.Unusable? then Answered(Failed(NoneInSize), answers)
        else
          match SaveImage(img.mode, outputFile, quality)
          case SaveFault(f) => Answered(Failed(f), answers)
          case Steps(ops) => Answered(Saved(ResizeOps(sizing) + ops), answers)
  }

  /** Only an animated GIF reads a prompt answer: for any other input the
      outcome does not depend on the answers left. */
  lemma StillIgnoresAnswers(image: Option<Image>, outputFile: string, quality: Option<int>,
                            resize: Option<Dim>, a1: seq<string>, a2: seq<string>)
    ensures image.None? || !IsAnimatedGif(image.value) ==>
              ProcessImage(image, outputFile, quality, resize, a1).value
              == ProcessImage(image, outputFile, quality, resize, a2).value
  {
  }

  /** What `process_image` does with a still image it saves: the resize
      operations, then everything `save_image` does. */
  lemma StillImageOps(img: Image, outputFile: string, quality: Option<int>,
                      resize: Option<Dim>, answers: seq<string>)
    returns (save: seq<ImageOp>)
    requires !IsAnimatedGif(img)
    requires ProcessImage(Some(img), outputFile, quality, resize, answers).value.Saved?
    ensures SaveImage(img.mode, outputFile, quality) == Steps(save)
    ensures ProcessImage(Some(img), outputFile, quality, resize, answers).value.ops
            == ResizeOps(SizingOf(resize)) + save
  {
    save := SaveImage(img.mode, outputFile, quality).ops;
  }

  /** A still image is resized first, and only once: no later operation
      resizes. */
  lemma StillImageResizeFirst(img: Image, outputFile: string, quality: Option<int>,
                              resize: Option<Dim>, answers: seq<string>)
    requires !IsAnimatedGif(img)
    requires ProcessImage(Some(img), outputFile, quality, resize, answers).value.Saved?
    ensures var ops := ProcessImage(Some(img), outputFile, quality, resize, answers).value.ops;
            && (SizingOf(resize).ResizeTo? ==>
                  ops[0] == Resize(SizingOf(resize).width, SizingOf(resize).height))
            && (forall k :: 0 < k < |ops| ==> !ops[k].Resize?)
  {
    var save := StillImageOps(img, outputFile, quality, resize, answers);
    var resizing := ResizeOps(SizingOf(resize));
    var ops := resizing + save;
    assert |resizing| <= 1 && forall k :: 0 <= k < |resizing| ==> resizing[k].Resize?;
    forall k | 0 < k < |ops|
      ensures !ops[k].Resize?
    {
      assert ops[k] == save[k - |resizing|];
    }
  }

  /** The save comes last and writes the source mode after the table's
      change (a resize leaves the mode alone); when no extension matches,
      "File saved" is reported with nothing written. */
  lemma StillImageSaveLast(img: Image, outputFile: string, quality: Option<int>,
                           resize: Option<Dim>, answers: seq<string>)
    requires !IsAnimatedGif(img)
    requires ProcessImage(Some(img), outputFile, quality, resize, answers).value.Saved?
    ensures var ops := ProcessImage(Some(img), outputFile, quality, resize, answers).value.ops;
            && (TargetOf(outputFile).None? ==> forall k :: 0 <= k < |ops| ==> !ops[k].Save?)
            && (TargetOf(outputFile).Some? ==>
                  && ops[|ops| - 1].Save?
                  && ops[|ops| - 1].call.mode == ModeAfter(img.mode, ops[..|ops| - 1]))
  {
    var save := StillImageOps(img, outputFile, quality, resize, answers);
    SaveLastAfterResize(img.mode, outputFile, quality, ResizeOps(SizingOf(resize)), save);
  }

  /** Resizes put in front of `save_image`'s steps leave its save last and
      its saved mode unchanged. */
  lemma SaveLastAfterResize(m: Mode, outputFile: string, quality: Option<int>,
                            resizing: seq<ImageOp>, save: seq<ImageOp>)
    requires forall k :: 0 <= k < |resizing| ==> resizing[k].Resize?
    requires SaveImage(m, outputFile, quality) == Steps(save)
    ensures var ops := resizing + save;
            && (TargetOf(outputFile).None? ==> forall k :: 0 <= k < |ops| ==> !ops[k].Save?)
            && (TargetOf(outputFile).Some? ==>
                  && ops[|ops| - 1].Save?
                  && ops[|ops| - 1].call.mode == ModeAfter(m, ops[..|ops| - 1]))
  {
    var ops := resizing + save;
    if TargetOf(outputFile).Some? {
      var prep := save[..|save| - 1];
      assert ops[..|ops| - 1] == resizing + prep;
      assert ops[|ops| - 1] == save[|save| - 1];
      ModeAfterConcat(m, resizing, prep);
    } else {
      assert ops == resizing;
    }
  }

  /** Running two operation lists one after the other. */
  lemma {:induction false} ModeAfterConcat(m: Mode, a: seq<ImageOp>, b: seq<ImageOp>)
    requires forall k :: 0 <= k < |a| ==> a[k].Resize?
    ensures ModeAfter(m, a + b) == ModeAfter(m, b)
  {
    if |a| > 0 {
      assert (a + b)[0] == a[0];
      assert a[0].Resize?;
      assert (a + b)[1..] == a[1..] + b;
      ModeAfterConcat(m, a[1..], b);
    } else {
      assert a + b == b;
    }
  }

  /** An animated GIF never reaches the mode table: the outcome does not
      depend on the quality at all. */
  lemma AnimatedIgnoresQuality(img: Image, outputFile: string, q1: Option<int>, q2: Option<int>,
                               resize: Option<Dim>, answers: seq<string>)
    requires IsAnimatedGif(img)
    ensures ProcessImage(Some(img), outputFile, q1, resize, answers)
            == ProcessImage(Some(img), outputFile, q2, resize, answers)
  {
  }

  /** What `combine_to_gif` produced. */
  datatype CombineOutcome =
    | AnimationSaved(path: Path, frames: seq<Path>, sizing: Sizing, durationMs: int, loop: int)
    | NothingSaved                  // no file collected: nothing written, nothing printed
    | CombineCrashed(fault: Fault)  // not caught: the exception leaves the program

  /** The frames `combine_to_gif` collects, in walk order, or the first
      exception: an unreadable file, or a resize pair with a `None` side. */
  function CollectFrames(folder: Path, walk: seq<Entry<Option<Image>>>, sizing: Sizing)
    : (r: Option<seq<Path>>)
    ensures r.Some? <==>
              (forall i :: 0 <= i < |walk| ==> walk[i].media.Some?)
              && (|walk| == 0 || !sizing.Unusable?)
    ensures r.Some? ==> |r.value| == |walk|
    ensures r.Some? ==> forall i :: 0 <= i < |walk| ==> r.value[i] == FileOf(folder, walk[i])
    decreases |walk|
  {
    if |walk| == 0 then Some([])
    else if walk[0].media.None? || sizing.Unusable? then None
    else
      match CollectFrames(folder, walk[1..], sizing)
      case None => None
      case Some(rest) => Some([FileOf(folder, walk[0])] + rest)
  }

  /** The first failure `CollectFrames` meets. The first file that opens is
      resized at once, so an unusable pair fails on the first file unless
      that file does not open; otherwise the first unreadable file ends the
      collection. */
  function FirstCombineFault(walk: seq<Entry<Option<Image>>>, sizing: Sizing): (f: Fault)
    ensures f == CannotOpen || f == NoneInSize
    ensures f == NoneInSize <==> |walk| > 0 && walk[0].media.Some? && sizing.Unusable?
    decreases |walk|
  {
    if |walk| == 0 then CannotOpen
    else if walk[0].media.None? then CannotOpen
    else if sizing.Unusable? then NoneInSize
    else FirstCombineFault(walk[1..], sizing)
  }

  /** `combine_to_gif`: an animation of every file, in walk order, shown 100 ms
      per frame and looping forever, written exactly when at least one file
      was collected; one unreadable file aborts the whole run. */
  function CombineToGif(folder: Path, walk: seq<Entry<Option<Image>>>, output: Path, resize: Option<Dim>)
    : (r: CombineOutcome)
    ensures r.AnimationSaved? <==>
              |walk| > 0 && !SizingOf(resize).Unusable?
              && forall i :: 0 <= i < |walk| ==> walk[i].media.Some?
    ensures r.NothingSaved? <==> |walk| == 0
    ensures r.AnimationSaved? ==>
              && r.path == output && r.durationMs == 100 && r.loop == 0
              && |r.frames| == |walk|
              && (forall i :: 0 <= i < |walk| ==> r.frames[i] == FileOf(folder, walk[i]))
    ensures r.AnimationSaved? ==> r.sizing == SizingOf(resize)
    ensures r.CombineCrashed? ==>
              && |walk| > 0
              && (r.fault == NoneInSize <==> walk[0].media.Some? && SizingOf(resize).Unusable?)
              && (r.fault == CannotOpen <==> !(walk[0].media.Some? && SizingOf(resize).Unusable?))
  {
    var sizing := SizingOf(resize);
    match CollectFrames(folder, walk, sizing)
    case None => CombineCrashed(FirstCombineFault(walk, sizing))
    case Some(frames) =>
      if |frames| > 0 then AnimationSaved(output, frames, sizing, 100, 0) else NothingSaved
  }

  /** One file the folder converter handed to `process_image`. */
  datatype ImageJob = ImageJob(input: Path, output: Path, outcome: ImageOutcome)

  /** A job for entry `e` reads that file and writes beside it. */
  predicate Beside(folder: Path, e: Entry<Option<Image>>, fmt: Format, job: ImageJob) {
    job.input == FileOf(folder, e) && job.output == ConvertedPath(folder, e, fmt)
  }

  /** A job for a file that is not an animated GIF has the outcome
      `process_image` gives that file, whatever answers are left. */
  predicate StillOutcome(e: Entry<Option<Image>>, quality: Option<int>, resize: Option<Dim>, job: ImageJob) {
    (e.media.None? || !IsAnimatedGif(e.media.value)) ==>
      job.outcome == ProcessImage(e.media, Render(job.output), quality, resize, []).value
  }

  /** One turn of the per-file loop: the file converted beside itself. */
  function ConvertOne(folder: Path, e: Entry<Option<Image>>, fmt: Format,
                      quality: Option<int>, resize: Option<Dim>, answers: seq<string>)
    : (r: Answered<ImageJob>)
    ensures JobFor(folder, e, fmt, quality, resize, r.value)
    ensures |r.rest| <= |answers|
  {
    var output := ConvertedPath(folder, e, fmt);
    StillIgnoresAnswers(e.media, Render(output), quality, resize, answers, []);
    var outcome := ProcessImage(e.media, Render(output), quality, resize, answers);
    Answered(ImageJob(FileOf(folder, e), output, outcome.value), outcome.rest)
  }

  /** The job the per-file loop makes of entry `e`: beside the file, and
      with the outcome `process_image` gives it unless it is an animated
      GIF (whose outcome depends on the frame answer it reads). */
  predicate JobFor(folder: Path, e: Entry<Option<Image>>, fmt: Format,
                   quality: Option<int>, resize: Option<Dim>, job: ImageJob) {
    Beside(folder, e, fmt, job) && StillOutcome(e, quality, resize, job)
  }

  /** Job `k` of `jobs` is the job for entry `k` of the walk, for every `k`. */
  predicate AllJobsFor(folder: Path, walk: seq<Entry<Option<Image>>>, fmt: Format,
                       quality: Option<int>, resize: Option<Dim>, jobs: seq<ImageJob>)
    decreases |walk|
  {
    |jobs| == |walk|
    && (|walk| > 0 ==>
          JobFor(folder, walk[0], fmt, quality, resize, jobs[0])
          && AllJobsFor(folder, walk[1..], fmt, quality, resize, jobs[1..]))
  }

  /** `AllJobsFor` read index by index. */
  lemma {:induction false} AllJobsForAt(folder: Path, walk: seq<Entry<Option<Image>>>, fmt: Format,
                                        quality: Option<int>, resize: Option<Dim>, jobs: seq<ImageJob>)
    requires AllJobsFor(folder, walk, fmt, quality, resize, jobs)
    ensures |jobs| == |walk|
    ensures forall i :: 0 <= i < |walk| ==> JobFor(folder, walk[i], fmt, quality, resize, jobs[i])
    decreases |walk|
  {
    if |walk| > 0 {
      AllJobsForAt(folder, walk[1..], fmt, quality, resize, jobs[1..]);
      forall i | 0 < i < |walk|
        ensures JobFor(folder, walk[i], fmt, quality, resize, jobs[i])
      {
        assert walk[i] == walk[1..][i - 1] && jobs[i] == jobs[1..][i - 1];
      }
    }
  }

  /** The per-file loop of `convert_folder_images`: every file, in walk
      order, converted beside itself as `converted_<stem>.<format>` with the
      outcome `process_image` gives it; an animated GIF among them reads its
      frame answer from the stream. */
  function ConvertEach(folder: Path, walk: seq<Entry<Option<Image>>>, fmt: Format,
                       quality: Option<int>, resize: Option<Dim>, answers: seq<string>)
    : (r: Answered<seq<ImageJob>>)
    ensures AllJobsFor(folder, walk, fmt, quality, resize, r.value)
    ensures |r.rest| <= |answers|
    decreases |walk|
  {
    if |walk| == 0 then Answered([], answers)
    else
      var first := ConvertOne(folder, walk[0], fmt, quality, resize, answers);
      var others := ConvertEach(folder, walk[1..], fmt, quality, resize, first.rest);
      var jobs := [first.value] + others.value;
      assert jobs[1..] == others.value;
      Answered(jobs, others.rest)
  }

  /** `<parent>/combined_<folder name>.gif`, where the parent is pathlib's
      lexical one: for a folder typed as `..` it is the current directory. */
  function CombinedPath(folder: Path): (p: Path)
    ensures Parent(p) == Parent(folder)
    ensures Name(p) == "combined_" + Name(folder) + ".gif"
  {
    var name: Part := "combined_" + Name(folder) + ".gif";
    Join(Parent(folder), name)
  }

  /** What `convert_folder_images` did. */
  datatype FolderOutcome =
    | Combined(output: Path, result: CombineOutcome)
    | ChoiceRejected                                   // answer not yes/y/no/n: nothing converted
    | EachConverted(jobs: seq<ImageJob>, rest: seq<string>)
    | ChoiceUnread                                     // no answer left for the combine prompt

  /** `convert_folder_images`: for a GIF target, "yes"/"y" combines the
      folder into one animation beside it, an answer other than
      yes/y/no/n (a blank one included) converts nothing, and "no"/"n" falls
      through to converting every file; other targets convert every file. */
  function ConvertFolderImages(folder: Path, walk: seq<Entry<Option<Image>>>, fmt: Format,
                               quality: Option<int>, resize: Option<Dim>, answers: seq<string>)
    : (r: FolderOutcome)
    ensures fmt != Gif ==> r.EachConverted?
    ensures r.Combined? ==>
              fmt == Gif && |answers| > 0 && Lower(Strip(answers[0])) in {"yes", "y"}
              && r.output == CombinedPath(folder)
    ensures r.ChoiceRejected? <==>
              fmt == Gif && |answers| > 0 && Lower(Strip(answers[0])) !in {"yes", "y", "no", "n"}
    ensures fmt == Gif && |answers| == 0 ==> r == ChoiceUnread
    ensures fmt == Gif && |answers| > 0 && IsYes(Lower(Strip(answers[0]))) ==>
              r == Combined(CombinedPath(folder), CombineToGif(folder, walk, CombinedPath(folder), resize))
    ensures fmt == Gif && |answers| > 0 && Lower(Strip(answers[0])) in {"no", "n"} ==> r.EachConverted?
    ensures r.EachConverted? ==>
              && |r.jobs| == |walk|
              && (forall i :: 0 <= i < |walk| ==> r.jobs[i].input == FileOf(folder, walk[i]))
              && (forall i :: 0 <= i < |walk| ==> r.jobs[i].output == ConvertedPath(folder, walk[i], fmt))
              && (forall i :: 0 <= i < |walk| ==> StillOutcome(walk[i], quality, resize, r.jobs[i]))
  {
    if fmt == Gif then
      if |answers| == 0 then ChoiceUnread
      else
        var choice := Lower(Strip(answers[0]));
        if choice == "yes" || choice == "y" then
          Combined(CombinedPath(folder), CombineToGif(folder, walk, CombinedPath(folder), resize))
        else if choice != "no" && choice != "n" then ChoiceRejected
        else
          var each := ConvertEach(folder, walk, fmt, quality, resize, answers[1..]);
          AllJobsForAt(folder, walk, fmt, quality, resize, each.value);
          EachConverted(each.value, each.rest)
    else
      var each := ConvertEach(folder, walk, fmt, quality, resize, answers);
      AllJobsForAt(folder, walk, fmt, quality, resize, each.value);
      EachConverted(each.value, each.rest)
  }
}

=== FILE: integers.dfy ===
/**
  Decimal integers as the converter reads and writes them: Python's `int(s)`
  on a prompt answer, `str.isdigit()` on a frame number, and `str(n)` for
  the default quality and the frame index in a file name.

  `int(s)` is modelled as surrounding whitespace, then an optional `+` or
  `-`, then one or more ASCII digits. Underscore separators and non-ASCII
  digits, which Python also accepts, are not modelled.
*/
module Integers {
  import opened Common

  predicate IsDigit(c: char) {
    '0' <= c <= '9'
  }

  /** Every character is an ASCII digit (the empty string included). */
  predicate AllDigits(s: string) {
    forall k :: 0 <= k < |s| ==> IsDigit(s[k])
  }

  /** `s.isdigit()`: non-empty and digits only (ASCII digits only). */
  predicate IsDigits(s: string) {
    |s| > 0 && AllDigits(s)
  }

  /** The value of a string of decimal digits, most significant first. */
  function DigitsValue(s: string): nat
    requires AllDigits(s)
  {
    if |s| == 0 then 0
    else DigitsValue(s[..|s| - 1]) * 10 + (s[|s| - 1] as int - '0' as int)
  }

  /** A sign character `int()` accepts in front of the digits. */
  predicate IsSign(c: char) {
    c == '+' || c == '-'
  }

  /** The text `int()` accepts once stripped: digits, optionally signed. */
  predicate IsNumeral(t: string) {
    IsDigits(t) || (|t| > 1 && IsSign(t[0]) && IsDigits(t[1..]))
  }

  /** `int(s)` on an answer that has already been stripped, as every prompt
      answer is, or `None` where Python raises `ValueError`: a value exactly
      when the stripped text is a numeral. The surrounding whitespace skipped
      is what `str.strip()` removes; `int()` itself refuses the separators
      U+001C..U+001F, which only matters for text that was not stripped. Digits alone read as their own
      decimal value; a sign in front keeps or negates it. */
  function ParseInt(s: string): (r: Option<int>)
    ensures r.Some? <==> IsNumeral(Strip(s))
    ensures IsDigits(s) ==> r == Some(DigitsValue(s))
    ensures IsDigits(Strip(s)) ==> r == Some(DigitsValue(Strip(s)))
    ensures var t := Strip(s);
            |t| > 1 && IsSign(t[0]) && IsDigits(t[1..]) ==>
              r == Some(if t[0] == '-' then -(DigitsValue(t[1..]) as int) else DigitsValue(t[1..]))
  {
    DigitsUnstripped(s);
    ParseStripped(Strip(s))
  }

  /** A digit string has no whitespace at either end to strip. */
  lemma DigitsUnstripped(s: string)
    ensures IsDigits(s) ==> Strip(s) == s
  {
    if IsDigits(s) {
      Unstripped(s);
    }
  }

  lemma Unstripped(s: string)
    requires |s| > 0 && !IsSpace(s[0]) && !IsSpace(s[|s| - 1])
    ensures Strip(s) == s
  {
  }

  /** `int()` once the surrounding whitespace is gone: an optional sign,
      then digits. */
  function ParseStripped(t: string): (r: Option<int>)
    ensures r.Some? <==> IsNumeral(t)
    ensures IsDigits(t) ==> r == Some(DigitsValue(t))
    ensures |t| > 1 && IsSign(t[0]) && IsDigits(t[1..]) ==>
              r == Some(if t[0] == '-' then -(DigitsValue(t[1..]) as int) else DigitsValue(t[1..]))
  {
    if |t| > 0 && (t[0] == '+' || t[0] == '-') then
      var digits := t[1..];
      if IsDigits(digits) then
        var magnitude: int := DigitsValue(digits);
        Some(if t[0] == '-' then -magnitude else magnitude)
      else None
    else if IsDigits(t) then Some(DigitsValue(t))
    else None
  }

  /** `int()` ignores surrounding whitespace, so stripping an answer first
      changes nothing. */
  lemma ParseIntStrip(s: string)
    ensures ParseInt(Strip(s)) == ParseInt(s)
  {
    TrimIdempotent(s, IsSpace);
  }

  function DigitChar(d: int): (c: char)
    requires 0 <= d < 10
    ensures IsDigit(c)
  {
    ('0' as int + d) as char
  }

  /** `str(n)` for a natural number: shortest decimal spelling. */
  function ShowNat(n: nat): (r: string)
    ensures IsDigits(r)
  {
    if n < 10 then [DigitChar(n)] else ShowNat(n / 10) + [DigitChar(n % 10)]
  }

  /** `str(n)`. */
  function ShowInt(n: int): (r: string)
    ensures |r| > 0
  {
    if n < 0 then "-" + ShowNat(-n) else ShowNat(n)
  }

  /** Reading back the digits `str(n)` writes gives `n`. */
  lemma {:induction false} DigitsValueShowNat(n: nat)
    ensures DigitsValue(ShowNat(n)) == n
  {
    if n >= 10 {
      var s := ShowNat(n);
      assert s[..|s| - 1] == ShowNat(n / 10);
      DigitsValueShowNat(n / 10);
    }
  }

  /** `int(str(n)) == n`: the printed default quality reads back as itself. */
  lemma ParseShowInt(n: int)
    ensures ParseInt(ShowInt(n)) == Some(n)
  {
    if n >= 0 {
      assert ShowInt(n) == ShowNat(n);
      ParseShowNat(n);
    } else {
      ParseShowNegative(n);
    }
  }

  lemma ParseShowNegative(n: int)
    requires n < 0
    ensures ParseInt(ShowInt(n)) == Some(n)
  {
    var digits := ShowNat(-n);
    var printed := ShowInt(n);
    assert printed == "-" + digits;
    DigitsValueShowNat(-n);
    var magnitude: int := DigitsValue(digits);
    assert magnitude == -n;
    ParseNegative(digits);
    assert ParseInt(printed) == Some(-magnitude);
  }

  lemma ParseShowNat(n: nat)
    ensures ParseInt(ShowNat(n)) == Some(n)
  {
    DigitsValueShowNat(n);
  }

  /** A minus sign in front of digits reads as the negated value. */
  lemma ParseNegative(digits: string)
    requires IsDigits(digits)
    ensures ParseInt("-" + digits) == Some(-(DigitsValue(digits) as int))
  {
    var s := "-" + digits;
    assert s[0] == '-' && s[1..] == digits;
    assert s[|s| - 1] == digits[|digits| - 1];
    Unstripped(s);
  }

  /** Different numbers are printed differently. */
  lemma ShowNatInjective(i: nat, j: nat)
    ensures ShowNat(i) == ShowNat(j) ==> i == j
  {
    DigitsValueShowNat(i);
    DigitsValueShowNat(j);
  }
}

=== FILE: paths.dfy ===
/**
  The part of Python's `pathlib.PurePosixPath` the converter relies on to
  name its outputs: a path is an optional root `/` plus a list of
  components; `name`, `parent`, `stem`, `suffix`, `with_name`,
  `with_suffix` and `/` work on that list; `str(path)` renders it and
  `Path(text)` parses it back.

  Parsing drops empty and `.` components, as pathlib does. Pathlib's
  special treatment of exactly two leading slashes is not modelled.
*/
module Paths {
  import opened Common

  predicate NoSlash(s: string) {
    forall k :: 0 <= k < |s| ==> s[k] != '/'
  }

  predicate NoDot(s: string) {
    forall k :: 0 <= k < |s| ==> s[k] != '.'
  }

  /** What pathlib keeps as one component after parsing. */
  predicate ValidPart(s: string) {
    s != "" && s != "." && NoSlash(s)
  }

  type Part = s: string | ValidPart(s) witness "_"

  datatype Path = Path(absolute: bool, parts: seq<Part>)

  /** What `os.path.exists` and `os.path.isdir` say about a typed path. */
  datatype PathFacts = PathFacts(present: bool, isDir: bool)

  /** `path.name`: the last component, or "" for `.` and `/`. */
  function Name(p: Path): string {
    if |p.parts| == 0 then "" else p.parts[|p.parts| - 1]
  }

  /** `path.parent`: the last component removed (`.` and `/` are their own parent). */
  function Parent(p: Path): Path {
    if |p.parts| == 0 then p else Path(p.absolute, p.parts[..|p.parts| - 1])
  }

  /** A path with a name is its parent joined with that name. */
  lemma ParentJoinName(p: Path)
    requires Name(p) != ""
    ensures p == Path(Parent(p).absolute, Parent(p).parts + [Name(p)])
  {
    assert p.parts == p.parts[..|p.parts| - 1] + [p.parts[|p.parts| - 1]];
  }

  /** `path / name` for a single component. */
  function Join(p: Path, name: Part): (r: Path)
    ensures Parent(r) == p && Name(r) == name
    ensures r.absolute == p.absolute
  {
    Path(p.absolute, p.parts + [name])
  }

  /** Python's `s.rfind(c)`: the last index holding `c`, or -1. */
  function LastIndexOf(s: string, c: char): (i: int)
    ensures -1 <= i < |s|
    ensures i >= 0 ==> s[i] == c
    ensures forall k :: i < k < |s| ==> s[k] != c
  {
    if |s| == 0 then -1
    else if s[|s| - 1] == c then |s| - 1
    else LastIndexOf(s[..|s| - 1], c)
  }

  /** `path.suffix` of a component: from the last dot on, provided that dot
      is neither the first nor the last character; otherwise empty. */
  function Suffix(name: string): string {
    var i := LastIndexOf(name, '.');
    if 0 < i < |name| - 1 then name[i..] else ""
  }

  /** `path.stem` of a component: the name without its suffix. */
  function Stem(name: string): string {
    var i := LastIndexOf(name, '.');
    if 0 < i < |name| - 1 then name[..i] else name
  }

  /** A name is its stem followed by its suffix; a non-empty suffix is a dot
      followed by at least one dot-free character; the stem of a non-empty
      name is non-empty, and it is a component whenever the name is. */
  lemma StemSuffixSplit(name: string)
    ensures Stem(name) + Suffix(name) == name
    ensures Suffix(name) == "" || (|Suffix(name)| >= 2 && Suffix(name)[0] == '.' && NoDot(Suffix(name)[1..]))
    ensures |name| > 0 ==> |Stem(name)| > 0
    ensures NoSlash(name) ==> NoSlash(Stem(name)) && NoSlash(Suffix(name))
  {
  }

  /** Appending "." and a dot-free extension to a non-empty base makes that
      extension the suffix and the base the stem. */
  lemma DottedName(base: string, ext: string)
    requires |base| > 0 && |ext| > 0 && NoDot(ext)
    ensures Suffix(base + "." + ext) == "." + ext
    ensures Stem(base + "." + ext) == base
  {
    var name := base + "." + ext;
    assert name[|base|] == '.';
    assert forall k :: |base| < k < |name| ==> name[k] == ext[k - |base| - 1];
    assert LastIndexOf(name, '.') == |base|;
    assert name[..|base|] == base;
    assert name[|base|..] == "." + ext;
  }

  /** `path.with_name(name)`; `None` where pathlib raises `ValueError`
      (the path has no name, or the new name is not a single component). */
  function WithName(p: Path, name: string): (r: Option<Path>)
    ensures r.Some? <==> Name(p) != "" && ValidPart(name)
    ensures r.Some? ==> Parent(r.value) == Parent(p) && Name(r.value) == name
  {
    if Name(p) == "" || !ValidPart(name) then None else Some(Join(Parent(p), name))
  }

  /** `path.with_suffix(suffix)` for a non-empty suffix; `None` where pathlib
      raises `ValueError` (a suffix that is `.`, lacks the leading dot or
      holds a slash, or a path with no name). Only the last component changes:
      its stem is kept and the suffix replaced. */
  function WithSuffix(p: Path, suffix: string): (r: Option<Path>)
    requires suffix != ""
    ensures r.Some? <==> Name(p) != "" && suffix[0] == '.' && suffix != "." && NoSlash(suffix)
    ensures r.Some? ==> Parent(r.value) == Parent(p) && Name(r.value) == Stem(Name(p)) + suffix
  {
    if !NoSlash(suffix) || suffix[0] != '.' || suffix == "." || Name(p) == "" then None
    else
      StemSuffixSplit(Name(p));
      var name: Part := Stem(Name(p)) + suffix;
      Some(Join(Parent(p), name))
  }

  /** Replacing a suffix by the one the name already has changes nothing. */
  lemma WithOwnSuffix(p: Path)
    requires Suffix(Name(p)) != ""
    ensures WithSuffix(p, Suffix(Name(p))) == Some(p)
  {
    StemSuffixSplit(Name(p));
    assert p.parts[..|p.parts| - 1] + [p.parts[|p.parts| - 1]] == p.parts;
  }

  /** Components joined by `/`. */
  function JoinParts(parts: seq<Part>): string {
    if |parts| == 0 then ""
    else if |parts| == 1 then parts[0]
    else parts[0] + "/" + JoinParts(parts[1..])
  }

  /** `str(path)`. */
  function Render(p: Path): string {
    if p.absolute then "/" + JoinParts(p.parts)
    else if |p.parts| == 0 then "."
    else JoinParts(p.parts)
  }

  /** The pieces of `s` between slashes (`s.split('/')`). */
  function Split(s: string): (pieces: seq<string>)
    ensures |pieces| > 0
  {
    if |s| == 0 then [""]
    else
      var rest := Split(s[1..]);
      if s[0] == '/' then [""] + rest else [[s[0]] + rest[0]] + rest[1..]
  }

  /** The pieces pathlib keeps as components: not empty, not `.`. */
  function KeepParts(pieces: seq<string>): (parts: seq<Part>)
    ensures |parts| <= |pieces|
  {
    if |pieces| == 0 then []
    else if pieces[0] == "" || pieces[0] == "." then KeepParts(pieces[1..])
    else if NoSlash(pieces[0]) then
      var part: Part := pieces[0];
      [part] + KeepParts(pieces[1..])
    else KeepParts(pieces[1..])
  }

  /** `Path(text)`. */
  function ParsePath(s: string): Path {
    Path(|s| > 0 && s[0] == '/', KeepParts(Split(s)))
  }

  lemma {:induction false} SplitNoSlash(x: string)
    requires NoSlash(x)
    ensures Split(x) == [x]
  {
    if |x| > 0 {
      SplitNoSlash(x[1..]);
      assert [x[0]] + x[1..] == x;
    }
  }

  lemma {:induction false} SplitAfterPiece(x: string, y: string)
    requires NoSlash(x)
    ensures Split(x + "/" + y) == [x] + Split(y)
  {
    if |x| == 0 {
      assert x + "/" + y == "/" + y;
      assert ("/" + y)[1..] == y;
    } else {
      SplitAfterPiece(x[1..], y);
      assert (x + "/" + y)[1..] == x[1..] + "/" + y;
      assert [x[0]] + x[1..] == x;
    }
  }

  lemma {:induction false} SplitJoinParts(parts: seq<Part>)
    requires |parts| > 0
    ensures Split(JoinParts(parts)) == parts
  {
    if |parts| == 1 {
      SplitNoSlash(parts[0]);
    } else {
      SplitJoinParts(parts[1..]);
      SplitAfterPiece(parts[0], JoinParts(parts[1..]));
      assert [parts[0]] + parts[1..] == parts;
    }
  }

  lemma {:induction false} KeepValidParts(parts: seq<Part>)
    ensures KeepParts(parts) == parts
  {
    if |parts| > 0 {
      KeepValidParts(parts[1..]);
      assert [parts[0]] + parts[1..] == parts;
    }
  }

  /** `Path(str(p)) == p`: rendering a path and parsing the text back gives
      the same path, so a name derived from a rendered output path is
      derived from that path. */
  lemma ParseRender(p: Path)
    ensures ParsePath(Render(p)) == p
  {
    var s := Render(p);
    if |p.parts| == 0 {
      if p.absolute {
        assert Split(s) == ["", ""];
        assert KeepParts(["", ""]) == KeepParts([""]) == [];
      } else {
        assert s == ".";
        assert Split(s[1..]) == [""];
        assert Split(s) == [['.'] + ""];
      }
    } else {
      SplitJoinParts(p.parts);
      KeepValidParts(p.parts);
      if p.absolute {
        SplitAfterPiece("", JoinParts(p.parts));
        assert "" + "/" + JoinParts(p.parts) == s;
      } else {
        assert s[0] == p.parts[0][0];
      }
    }
  }
}

=== FILE: utils.dfy ===
/**
  The prompt-answer validators of `source/utils.py`. Each parses a string
  with `int()` and checks it against a range or a list of options; every
  failure, an empty answer included, comes back as the `None` sentinel and
  never as an exception. The diagnostic each failure prints is not modelled.
*/
module Utils {
  import opened Common
  import opened Integers

  /** Formats for which `validate_quality` refuses any quality. */
  const NoQualityFormats: seq<string> := ["bmp", "ico", "gif", "aac"]
  const QualityRange: (int, int) := (1, 100)
  const BitrateMin := 32
  const BitrateMax := 320
  const ChannelsOptions: seq<int> := [1, 2]
  const FrequencyMin := 8000
  const FrequencyMax := 48000

  /** `validate_input(text, int, valid_range, valid_options)`. An empty
      option list is falsy in Python and so imposes nothing. */
  function ValidateInput(text: string, range: Option<(int, int)>, options: seq<int>): (r: Option<int>)
    ensures r.Some? ==> ParseInt(text) == r
    ensures r.Some? && range.Some? ==> range.value.0 <= r.value <= range.value.1
    ensures r.Some? && |options| > 0 ==> r.value in options
    ensures r.Some? <==>
              && ParseInt(text).Some?
              && (range.None? || range.value.0 <= ParseInt(text).value <= range.value.1)
              && (|options| == 0 || ParseInt(text).value in options)
  {
    match ParseInt(text)
    case None => None
    case Some(v) =>
      if range.Some? && !(range.value.0 <= v <= range.value.1) then None
      else if |options| > 0 && v !in options then None
      else Some(v)
  }

  /** `validate_quality`: nothing for bmp/ico/gif/aac whatever the text;
      otherwise the parsed integer exactly when it lies in [1, 100]. */
  function ValidateQuality(text: string, format: string): (r: Option<int>)
    ensures format in NoQualityFormats ==> r == None
    ensures format !in NoQualityFormats ==>
              (r.Some? <==> ParseInt(text).Some? && 1 <= ParseInt(text).value <= 100)
    ensures r.Some? ==> r == ParseInt(text)
  {
    if format in NoQualityFormats then None
    else ValidateInput(text, Some(QualityRange), [])
  }

  /** `validate_bitrate`: an empty answer means "keep the source bitrate";
      otherwise the parsed integer exactly when it lies in [32, 320]. */
  function ValidateBitrate(text: string): (r: Option<int>)
    ensures text == "" ==> r == None
    ensures text != "" ==>
              (r.Some? <==> ParseInt(text).Some? && 32 <= ParseInt(text).value <= 320)
    ensures r.Some? ==> r == ParseInt(text)
  {
    if text == "" then None
    else ValidateInput(text, Some((BitrateMin, BitrateMax)), [])
  }

  /** `validate_channels`: an empty answer means "keep"; otherwise 1 or 2. */
  function ValidateChannels(text: string): (r: Option<int>)
    ensures text == "" ==> r == None
    ensures text != "" ==>
              (r.Some? <==> ParseInt(text).Some? && ParseInt(text).value in {1, 2})
    ensures r.Some? ==> r == ParseInt(text)
  {
    if text == "" then None
    else ValidateInput(text, None, ChannelsOptions)
  }

  /** `validate_frequency`: an empty answer means "keep"; otherwise the
      parsed integer exactly when it lies in [8000, 48000]. */
  function ValidateFrequency(text: string): (r: Option<int>)
    ensures text == "" ==> r == None
    ensures text != "" ==>
              (r.Some? <==> ParseInt(text).Some? && 8000 <= ParseInt(text).value <= 48000)
    ensures r.Some? ==> r == ParseInt(text)
  {
    if text == "" then None
    else ValidateInput(text, Some((FrequencyMin, FrequencyMax)), [])
  }

  /** The pair `validate_resize` returns; each side is a number or `None`. */
  datatype Dim = Dim(width: Option<int>, height: Option<int>)

  /** `validate_resize`: always a pair; each side is the parsed integer or
      `None` on its own, with no sign or range check. */
  function ValidateResize(width: string, height: string): (r: Dim)
    ensures r.width == ParseInt(width) && r.height == ParseInt(height)
  {
    Dim(ValidateInput(width, None, []), ValidateInput(height, None, []))
  }

  /** Every quality in [1, 100], written the way `str()` writes it, is
      accepted as itself for a format that takes a quality. */
  lemma QualityAcceptsPrinted(q: int, format: string)
    requires 1 <= q <= 100 && format !in NoQualityFormats
    ensures ValidateQuality(ShowInt(q), format) == Some(q)
  {
    ParseShowInt(q);
  }

  /** A printed quality outside [1, 100] is refused, whatever the format. */
  lemma QualityRefusesPrintedOutOfRange(q: int, format: string)
    requires q < 1 || q > 100
    ensures ValidateQuality(ShowInt(q), format) == None
  {
    ParseShowInt(q);
  }

  /** The audio validators accept exactly their printed in-range values. */
  lemma AudioValidatorsAcceptPrinted(n: int)
    ensures ValidateBitrate(ShowInt(n)) == (if 32 <= n <= 320 then Some(n) else None)
    ensures ValidateChannels(ShowInt(n)) == (if n == 1 || n == 2 then Some(n) else None)
    ensures ValidateFrequency(ShowInt(n)) == (if 8000 <= n <= 48000 then Some(n) else None)
  {
    ParseShowInt(n);
  }
}
